=== FILE: README.md ===
# Voxel editor core in Dafny

This project models the editing core of the voxel editor in `src/voxel_editor.cpp`: the
layered voxel store and its mirrored edits, the composite of the active layers, depth
resolution along a view axis, the axis-aligned views and their mouse mapping, the command
history, cursor and tool handling, and loading and saving the layered document.

Modules, one per concern:

- `Geometry`: voxel addresses (`VoxelPos`), the axes, and the x-mirror `(-x-1, y, z)` used by symmetric mode.
- `Ordering`: the key orders of `std::map` (strings, positions) and iteration in that order.
- `Voxels`: layer maps, the symmetric write and erase, the composite `build_voxels` produces, and the selection rule of `get_selected_voxel`.
- `Document`: the `variant` tree, `read_voxel`/`write_voxel`/`read_layer_type`/`read_model`/`write_model`, their round trip, and the choice of the active variation.
- `History`: the four recorded commands as a tagged datatype, what their redo and undo do to the editing session, and the two command stacks.
- `Editor`: class `VoxelEditor`, the `voxel_editor` dialog's editing state and operations, including `on_save`.
- `Perspective`: class `Renderer` (`perspective_renderer`) and class `PerspectiveWidget` (`perspective_widget`), with the projection, the mouse mapping, zoom, and the mouse and key handling.

Behaviour worth knowing, all proved about the model:

- `build_voxels` uses `std::map::insert`, which never overwrites. When two active layers hold the same cell, the composite keeps the **lowest-index** layer's voxel, tagged with that index (`Voxels.MergeOwner`).
- Undo restores the session whenever `History.CleanlyReversible` holds, in particular with symmetric mode off (`History.UndoRestores`, `Perspective.StrokeUndone`). `pencil_voxel` remembers the old voxel of the cursor cell only, and the undo of a stroke on an empty cell calls `delete_voxel`, which under symmetric mode erases the mirror cell too. So that undo also erases the mirror cell, even when it held a voxel before the stroke (`History.SymmetricUndoLosesMirror`).
- `get_mouse_pos` divides with C++ truncation. Left of the view centre it subtracts one cell width first, and below it adds one. The column is then `dx / width` rounded down, except exactly on a cell border left of the centre, where it is one less. So the column left of the centre is one pixel narrower than the others (`Perspective.MouseColumn`, `Perspective.NarrowColumn`). The row has the mirror-image behaviour below the centre (`Perspective.MouseRow`).
- Layer types are read back in name order, because the "layers" node is a string-keyed map. The write/read round trip therefore holds for models whose layer types are strictly sorted by name, which is exactly what `read_model` produces (`Document.ReadModelWellFormed`, `Document.ModelRoundTrip`).

## Model

| member | source | states |
|---|---|---|
| Geometry.Mirror | src/voxel_editor.cpp:1542-1543 | the mirror cell keeps y and z, and its x and the original x sum to -1 |
| Geometry.MirrorInvolution | src/voxel_editor.cpp:1542-1543 | mirroring twice gives back the original cell |
| Geometry.MirrorNoFixedPoint | src/voxel_editor.cpp:1542-1543 | no cell is its own mirror, so a symmetric edit always touches two distinct cells |
| Geometry.SameRayAndDepth | src/voxel_editor.cpp:1584-1595 | two cells on the same ray with the same depth value `flip*p[facing]` are the same cell |
| Ordering.StrLeTotalOrder | src/voxel_editor.cpp:128 | lexicographic string order is a total order, so a string-keyed map has one iteration sequence |
| Ordering.PosLeTotalOrder | src/voxel_editor.cpp:149 | lexicographic `VoxelPos` order is a total order |
| Ordering.Minimum | src/voxel_editor.cpp:1438 | `begin()` of a non-empty map: a key at or below every other key |
| Ordering.Sorted | src/voxel_editor.cpp:109 | map iteration visits every key exactly once, in strictly increasing order |
| Ordering.SortedUnique | src/voxel_editor.cpp:109 | two strictly sorted sequences with the same elements are equal, so iteration order is determined by the key set |
| Ordering.SortedOfSortedList | src/voxel_editor.cpp:128 | iterating a map whose keys were given in strictly sorted order yields that order |
| Voxels.Place | src/voxel_editor.cpp:1538-1545 | the cell holds the voxel afterwards, and so does its distinct mirror under symmetric mode; exactly those keys are added and no other cell changes |
| Voxels.Erase | src/voxel_editor.cpp:1549-1556 | exactly the cell (and its mirror under symmetric mode) is removed, and every remaining cell is unchanged |
| Voxels.PlaceIdempotent | src/voxel_editor.cpp:1538-1545 | writing the same voxel twice at a cell leaves the same map as writing it once |
| Voxels.EraseAbsent | src/voxel_editor.cpp:1549-1556 | erasing an absent cell (and absent mirror) leaves the map unchanged |
| Voxels.Owner | src/voxel_editor.cpp:1724-1731 | the lowest-index layer holding a cell, or none exactly when no layer holds it |
| Voxels.Overlay | src/voxel_editor.cpp:1725-1728 | inserting a layer's cells keeps every cell already in the composite and adds the new ones with the layer's tag |
| Voxels.OverlayInsert | src/voxel_editor.cpp:1727 | one `insert` leaves a present key untouched and adds an absent one with the layer's tag |
| Voxels.MergePrefix | src/voxel_editor.cpp:1724-1731 | the composite of the first n+1 layers is that of the first n with layer n inserted |
| Voxels.MergeOwner | src/voxel_editor.cpp:1720-1732 | the composite's keys are the union of the active layers' keys; each entry is the lowest-index owner's voxel tagged with that index |
| Voxels.SelectionUnique | src/voxel_editor.cpp:1576-1604 | at most one cell meets the selection rule, so neither the `>=` tie-break nor the scan order matters |
| Document.ColorRoundTrip | src/voxel_editor.cpp:68 | a written colour reads back as itself |
| Document.VoxelRoundTrip | src/voxel_editor.cpp:61-81 | a written voxel reads back at the same cell with the same colour and tag -1 |
| Document.ReadWrittenCells | src/voxel_editor.cpp:114-116 | reading back distinct written cells adds exactly those cells to the map being built |
| Document.AddFirstKey | src/voxel_editor.cpp:115 | adding a key list's entries one by one, first key first, gives the map over the whole list |
| Document.CopyAllKeys | src/voxel_editor.cpp:149-151 | copying the entries of a key list that covers a map rebuilds the map |
| Document.StoreRoundTrip | src/voxel_editor.cpp:148-152 | every untagged layer map survives being written as a voxel list and read back |
| Document.LayerRoundTrip | src/voxel_editor.cpp:110-117 | a written variation node reads back as the variation |
| Document.ReadWrittenVariations | src/voxel_editor.cpp:109-120 | reading written variations in a key order adds exactly those variations |
| Document.VariationsRoundTrip | src/voxel_editor.cpp:144-156 | a well-formed variations map survives being written and read back |
| Document.ReadVariationsOfObject | src/voxel_editor.cpp:109 | the variations loop reads an object node's entries in key order |
| Document.LayerTypeRoundTrip | src/voxel_editor.cpp:98-123 | a well-formed layer type reads back as itself, except that its name is left for the caller |
| Document.Names | src/voxel_editor.cpp:141 | the layer-type names, one per layer type, in order |
| Document.NameSet | src/voxel_editor.cpp:157 | every layer type's name is in the set of names |
| Document.NameSetOnlyNames | src/voxel_editor.cpp:157 | the set of names holds nothing but layer-type names |
| Document.WrittenLayerTypeKeys | src/voxel_editor.cpp:139-158 | the written "layers" node has exactly the layer-type names as keys |
| Document.WrittenLayerTypes | src/voxel_editor.cpp:157 | with distinct names, each layer type is written under its own name |
| Document.WrittenNodes | src/voxel_editor.cpp:157 | with distinct names, every layer type is written under its own name |
| Document.ReadWrittenLayerTypes | src/voxel_editor.cpp:128-132 | reading the written nodes in name order gives back the layer types, each named by its key |
| Document.WrittenKeysInOrder | src/voxel_editor.cpp:128 | layer types in strict name order come back from the "layers" node in the same order |
| Document.SortedNamesDistinct | src/voxel_editor.cpp:128 | layer types in strict name order have distinct names |
| Document.ReadModelOfLayers | src/voxel_editor.cpp:125-135 | `read_model` of a document whose "layers" node is an object reads its entries in key order |
| Document.ModelRoundTrip | src/voxel_editor.cpp:125-163 | a model with layer types in strict name order and well-formed variations survives `write_model` then `read_model` |
| Document.ReadVoxelsUntagged | src/voxel_editor.cpp:76-80 | read voxels carry the tag -1 |
| Document.DuplicateLocationKeepsFirst | src/voxel_editor.cpp:115 | two voxel entries at the same location keep the first one |
| Document.ReadVariationsWellFormed | src/voxel_editor.cpp:109-120 | each variation read is stored under its own name and holds untagged voxels |
| Document.ReadVariationsNodeWellFormed | src/voxel_editor.cpp:101-120 | the variations node, null or a map, reads as well-formed variations |
| Document.ReadLayerTypeWellFormed | src/voxel_editor.cpp:98-123 | a read layer type is well-formed, and a null "variations" node gives exactly one empty variation named "default" |
| Document.ReadLayerTypesNamed | src/voxel_editor.cpp:128-132 | the layer types read carry their keys as names, in key order |
| Document.ReadModelWellFormed | src/voxel_editor.cpp:125-135 | `read_model` yields layer types in strict name order with well-formed variations |
| Document.ActiveVariation | src/voxel_editor.cpp:1436-1443 | the last edited variation when it exists, otherwise the variation with the least name |
| History.WithStore | src/voxel_editor.cpp:1540 | only the current layer's map changes; no other layer, the current index and the flag stay |
| History.Apply | src/voxel_editor.cpp:1715 | a command's redo keeps the current index valid and the number of layers |
| History.Revert | src/voxel_editor.cpp:1681 | a command's undo keeps the current index valid and the number of layers |
| History.Execute | src/voxel_editor.cpp:1713-1718 | the command is pushed for undo, the redo stack is emptied, and the session stays valid |
| History.Undo | src/voxel_editor.cpp:1676-1685 | nothing on an empty undo stack; otherwise the top command moves to the redo stack; the total stack length is kept |
| History.Redo | src/voxel_editor.cpp:1687-1696 | nothing on an empty redo stack; otherwise the top command moves to the undo stack; the total stack length is kept |
| History.UndoThenRedo | src/voxel_editor.cpp:1676-1696 | undo then redo restores both stacks |
| History.RedoThenUndo | src/voxel_editor.cpp:1676-1696 | redo then undo restores both stacks |
| History.PencilCommand | src/voxel_editor.cpp:952-973 | the recorded command writes an untagged voxel of the colour at the cursor and remembers what the current layer held there |
| History.DeleteCommand | src/voxel_editor.cpp:982-993 | no command exactly when the current layer has no voxel at the cursor; otherwise one remembering the removed voxel |
| History.UndoRestores | src/voxel_editor.cpp:965-973 | undoing a command recorded in a session gives that session back, for voxel commands when symmetric mode is off |
| History.SymmetricUndoLosesMirror | src/voxel_editor.cpp:959-973 | under symmetric mode, for any cell the current layer leaves empty, undoing the pencil stroke there, whose undo erases with `delete_voxel` (lines 1552-1556), leaves the layer's map as before minus the mirror cell, so the session is not restored when the mirror cell held a voxel |
| History.LinearHistory | src/voxel_editor.cpp:1713-1718 | executing after an undo discards the undone command: nothing is left to redo and the session is as if it never ran |
| History.SetVoxelTwice | src/voxel_editor.cpp:965-975 | `pencil_voxel`'s second direct write changes nothing after the command's write |
| Editor.EffectiveTool | src/voxel_editor.cpp:211-221 | shift makes the pencil the pencil-above tool; otherwise ctrl makes either pencil the picker; the picker never changes |
| Editor.SaveLayer | src/voxel_editor.cpp:1668-1669 | the active layer is stored under its name, which becomes the last edited variation; other variations and the name stay |
| Editor.SaveAll | src/voxel_editor.cpp:1667-1670 | one saved layer type per layer type |
| Editor.SaveAllAt | src/voxel_editor.cpp:1667-1670 | saved layer type i is layer type i with active layer i saved into it |
| Editor.SaveAllWellFormed | src/voxel_editor.cpp:1667-1670 | saving keeps a well-formed model well-formed |
| Editor.ReopenAfterSave | src/voxel_editor.cpp:1436-1443 | reopening a saved layer type activates the layer that was active when it was saved |
| Editor.SaveRoundTrip | src/voxel_editor.cpp:1658-1674 | the document `on_save` writes reads back as the saved model, which is well-formed |
| Editor.ActiveVariationIsStored | src/voxel_editor.cpp:1436-1443 | the active variation is one of the layer type's variations |
| Editor.VoxelEditor.constructor | src/voxel_editor.cpp:1424-1450 | one blank layer without a file name, otherwise the active variation of each layer type read; empty history, no cursor, pencil tool, symmetric off; the composite is built |
| Editor.VoxelEditor.Open | src/voxel_editor.cpp:1429-1445 | the model read and one active layer per layer type, each the layer type's active variation |
| Editor.VoxelEditor.ActiveLayers | src/voxel_editor.cpp:1435-1444 | layer i is the active variation of layer type i, with untagged voxels when the model is well-formed |
| Editor.VoxelEditor.BuildVoxels | src/voxel_editor.cpp:1720-1732 | the composite is rebuilt from the active layers |
| Editor.VoxelEditor.Composite | src/voxel_editor.cpp:1720-1732 | the nested loop yields the composite of all active layers |
| Editor.VoxelEditor.InsertLayer | src/voxel_editor.cpp:1725-1728 | the inner loop inserts every cell of one layer with its tag, keeping cells already present |
| Editor.VoxelEditor.SetVoxel | src/voxel_editor.cpp:1538-1547 | the current layer's map becomes `Place(map, pos, voxel, symmetric)`; the editor invariant, including the rebuilt composite, is kept |
| Editor.VoxelEditor.DeleteVoxel | src/voxel_editor.cpp:1549-1558 | the current layer's map becomes `Erase(map, pos, symmetric)`; the invariant is kept |
| Editor.VoxelEditor.SetCursor | src/voxel_editor.cpp:1560-1574 | the cursor is at the position afterwards, and the result is false exactly when it was there already |
| Editor.VoxelEditor.OnRay | src/voxel_editor.cpp:1583-1589 | true exactly when the cell agrees with the query on both axes other than the facing one |
| Editor.VoxelEditor.GetSelectedVoxel | src/voxel_editor.cpp:1576-1604 | a cell on the query's ray: the occupied one nearest the viewer (largest depth along the view vector), or the query itself when the ray is empty |
| Editor.VoxelEditor.Forward | src/voxel_editor.cpp:1715 | running a command's redo changes the session as `Apply` says and keeps the invariant |
| Editor.VoxelEditor.Backward | src/voxel_editor.cpp:1681 | running a command's undo changes the session as `Revert` says and keeps the invariant |
| Editor.VoxelEditor.ExecuteCommand | src/voxel_editor.cpp:1713-1718 | session and stacks change as `Execute` says |
| Editor.VoxelEditor.Undo | src/voxel_editor.cpp:1676-1685 | session and stacks change as `History.Undo` says |
| Editor.VoxelEditor.Redo | src/voxel_editor.cpp:1687-1696 | session and stacks change as `History.Redo` says |
| Editor.VoxelEditor.SetSymmetric | src/voxel_editor.cpp:1627-1635 | the flag takes the value, and a command holding the value and the old value is executed |
| Editor.VoxelEditor.SelectTool | src/voxel_editor.cpp:1621-1625 | the tool is the one selected |
| Editor.VoxelEditor.MouseoverLayer | src/voxel_editor.cpp:1637-1640 | the highlighted layer is the one under the mouse |
| Editor.VoxelEditor.SelectLayer | src/voxel_editor.cpp:1642-1656 | -1 changes nothing; any other index becomes current through a command remembering the old index |
| Editor.VoxelEditor.SaveLayers | src/voxel_editor.cpp:1667-1670 | the loop stores each active layer into its layer type |
| Editor.VoxelEditor.OnSave | src/voxel_editor.cpp:1658-1674 | without a file name nothing is written and the model stays; otherwise the model becomes the saved model and the document written is `write_model` of it |
| Editor.VoxelEditor.SaveModel | src/voxel_editor.cpp:1665-1670 | the saved model, which stays well-formed |
| Perspective.TDiv | src/voxel_editor.cpp:940-941 | C++ division by a positive divisor: the quotient rounded toward zero |
| Perspective.FirstNonzero | src/voxel_editor.cpp:868-873 | the facing axis is the first non-zero direction component |
| Perspective.ScreenAxes | src/voxel_editor.cpp:900-905 | the two visible axes in {x, z, y} order, skipping the facing axis |
| Perspective.DenormalizeNormalize | src/voxel_editor.cpp:894-925 | denormalizing a normalized cell gives the cell with its facing coordinate set to 0 |
| Perspective.NormalizeDenormalize | src/voxel_editor.cpp:894-925 | normalizing a denormalized screen cell gives back its two screen coordinates and 0 |
| Perspective.NormalizeForgetsDepth | src/voxel_editor.cpp:1115 | two cells on the same ray show at the same screen cell |
| Perspective.MouseColumn | src/voxel_editor.cpp:927-947 | the column is `dx / width` rounded down, one less exactly on a border left of the centre |
| Perspective.ColumnOf | src/voxel_editor.cpp:932-940 | the column formula in terms of the offset from the centre |
| Perspective.NarrowColumn | src/voxel_editor.cpp:932-940 | at width 20, pixel -20 is in column -2 while pixels -19 to -1 are in column -1 |
| Perspective.MouseRow | src/voxel_editor.cpp:927-947 | the row is `dy / width` rounded up, one more exactly on a border below the centre, times `invert_y_` |
| Perspective.RowOf | src/voxel_editor.cpp:936-941 | the row formula in terms of the offset from the centre |
| Perspective.ZoomedIn | src/voxel_editor.cpp:880-885 | zooming in stays among the zoom levels and doubles exactly below 80 |
| Perspective.ZoomedOut | src/voxel_editor.cpp:887-892 | zooming out stays among the zoom levels and halves exactly above 5 |
| Perspective.ZoomRoundTrip | src/voxel_editor.cpp:880-892 | zooming in then out (or out then in) returns to the same level when the first step changed it |
| Perspective.Negate | src/voxel_editor.cpp:1418-1420 | every direction component is negated |
| Perspective.FlipKeepsFacing | src/voxel_editor.cpp:1415-1422 | after a flip the view faces the same axis from the other side, and flipping twice restores the direction |
| Perspective.PencilTargetUnderMouse | src/voxel_editor.cpp:1113-1118 | with the pencil tool the cursor shows at the screen cell under the mouse |
| Perspective.AboveTargetIsEmpty | src/voxel_editor.cpp:1006-1011 | with pencil-above on a ray that meets a voxel, the cursor lands on the empty cell in front of the visible voxel, on the same ray |
| Perspective.Scrolled | src/voxel_editor.cpp:1035-1039 | the wheel moves the cursor one step along the facing axis only: away from the viewer when scrolled up, towards the viewer otherwise |
| Perspective.ScrollRoundTrip | src/voxel_editor.cpp:1035-1039 | one notch up and one notch down put the cursor back |
| Perspective.Stroke | src/voxel_editor.cpp:1058-1062 | left button: the cursor cell holds the colour; right button: the cursor cell is empty; only the current layer changes; the history grows by one command or nothing happens |
| Perspective.StrokeUndone | src/voxel_editor.cpp:949-995 | with symmetric mode off, undoing a click that recorded a command gives back the session and leaves that command to redo |
| Perspective.Advance | src/voxel_editor.cpp:1008-1010 | the cursor moves by the view vector |
| Perspective.Renderer.constructor | src/voxel_editor.cpp:860-878 | width 20, no mouse position, not drawing, no focus; the facing axis and `invert_y_` follow from the direction |
| Perspective.Renderer.ZoomIn | src/voxel_editor.cpp:880-885 | the width becomes `ZoomedIn` of the old width and stays a zoom level |
| Perspective.Renderer.ZoomOut | src/voxel_editor.cpp:887-892 | the width becomes `ZoomedOut` of the old width and stays a zoom level |
| Perspective.Renderer.NormalizePos | src/voxel_editor.cpp:894-908 | the loop yields `Normalize` of the cell |
| Perspective.Renderer.DenormalizePos | src/voxel_editor.cpp:910-925 | the loop yields `Denormalize` of the screen cell |
| Perspective.Renderer.MouseCell | src/voxel_editor.cpp:927-947 | the screen cell under the mouse, with slot 2 at 0 |
| Perspective.Renderer.CalculateCursor | src/voxel_editor.cpp:997-1015 | nothing without a mouse position; otherwise the cursor is the target on the ray under the mouse, and the result says whether it moved |
| Perspective.Renderer.PencilVoxel | src/voxel_editor.cpp:949-977 | session and history change as a left-button `Stroke` at the cursor |
| Perspective.Renderer.DeleteVoxel | src/voxel_editor.cpp:979-995 | session and history change as a right-button `Stroke` at the cursor |
| Perspective.Renderer.KeyEvent | src/voxel_editor.cpp:1020-1024 | the cursor is recomputed at the last mouse position under the new modifier keys |
| Perspective.Renderer.Wheel | src/voxel_editor.cpp:1026-1043 | without focus or cursor nothing changes; otherwise the cursor becomes `Scrolled` |
| Perspective.Renderer.MouseButtonUp | src/voxel_editor.cpp:1045-1049 | the drag ends with no drawn cells |
| Perspective.Renderer.MouseButtonDown | src/voxel_editor.cpp:1051-1098 | outside: the drag ends; picker: the colour under the cursor, nothing else changes; pencils: a `Stroke`, the cursor recomputed (kept when there is no mouse position), a drag started on the cursor's cell; a layer is needed only when a pencil button paints at a cursor |
| Perspective.Renderer.PickColor | src/voxel_editor.cpp:1075-1089 | the composite colour under the cursor, for the left or right button |
| Perspective.Renderer.Paint | src/voxel_editor.cpp:1058-1062 | a `Stroke` with the button |
| Perspective.Renderer.StartDrag | src/voxel_editor.cpp:1064-1071 | the cursor is recomputed and the drag's only drawn cell is the cursor's screen cell |
| Perspective.Renderer.MouseMotion | src/voxel_editor.cpp:1100-1139 | outside: focus and mouse position lost, nothing drawn; inside: focus, position kept, and the outcome `Follow` states; a cell is drawn on at most once per drag, and the history changes only when a new cell is drawn |
| Perspective.Renderer.Follow | src/voxel_editor.cpp:1106-1133 | for the target c under the mouse: when the cursor moved to c during a pencil drag with a button held onto a cell not yet drawn, the cell is recorded and session and history change as a `Stroke` at c (left button first); otherwise nothing is drawn or changed and the cursor is c |
| Perspective.Renderer.Drag | src/voxel_editor.cpp:1110-1132 | during a pencil drag with a button held, a cell not yet drawn is recorded and gets a `Stroke` with the left button if held, else the right; in every other case drawn cells, session, history and cursor are unchanged |
| Perspective.Renderer.DragStep | src/voxel_editor.cpp:1114-1126 | a cell already drawn on this drag is skipped with nothing changed; a new one gets a `Stroke` and is recorded |
| Perspective.Renderer.DrawAt | src/voxel_editor.cpp:1116-1118 | a `Stroke` at the cursor, then the cursor recomputed and its screen cell recorded |
| Perspective.Renderer.MarkDrawn | src/voxel_editor.cpp:1117-1118 | the cursor is recomputed and the screen cell under the mouse is recorded as drawn |
| Perspective.PerspectiveWidget.constructor | src/voxel_editor.cpp:1384-1389 | unflipped, with a fresh renderer looking along the direction |
| Perspective.PerspectiveWidget.Flip | src/voxel_editor.cpp:1415-1422 | `flipped_` toggles, the direction is negated, and a fresh renderer faces the same axis from the other side at width 20 |

## Left out

- Rendering: the isometric renderer, all drawing of the views, highlight pulsing, and the layout and rebuild of widgets (`init`, including the rebuilds after undo, redo and tool selection). These are graphics and floating point.
- The toolbar labels and the position label's text and placement in `set_cursor`. These are UI text.
- SDL event dispatch and `SDL_GetModState`/`SDL_GetMouseState`. The modifier keys are the `shift`/`ctrl` parameters, the held buttons `leftHeld`/`rightHeld`, the wheel `wheelY`, and each event kind is its own method.
- The colour picker widget. The current colour is a parameter; `MouseButtonDown` returns the picked colour instead of setting the picker's primary (left) or secondary (right) colour.
- `json::parse_from_file` and `sys::write_file`, which are file I/O. The constructor takes the parsed document; `OnSave` returns the document it would write.
- The `variant` library is modelled only as the tree shapes used here (null, integer, string, list, string-keyed object). `graphics::color` is modelled as its four 8-bit channels written as a list of four integers; its other textual forms are not part of this model.
- Editor.VoxelEditor.constructor: requires that the document reads and that every layer type has a variation. In the source a failed read is fatal and an empty layer type trips an assertion.
- Editor.VoxelEditor.SetVoxel, Editor.VoxelEditor.DeleteVoxel and the renderer's PencilVoxel/DeleteVoxel (when there is a cursor): require a current layer. `layer()` asserts this in the source. The mouse handlers require one only on the paths that reach these calls.
- Perspective.Renderer.MouseMotion: requires a mouse x other than `INT_MIN`. SDL never reports it, and the source uses it as the "no position" marker.
- Integers are unbounded. 32-bit overflow of `-x-1` at `INT_MIN`, of the cursor step and of the mouse arithmetic is not modelled.
- Perspective.Renderer.DeleteVoxel: its contract names the colour 0,0,0,0 only because `Stroke` takes one; a right-button stroke ignores it.
- The renderer's screen area is fixed at construction. `set_dim` and window resizing are not part of this model.
- The `g_voxel_editor` singleton is an explicit `editor` reference.
- The window-resize handling and the empty `on_color_changed` of the dialog are UI glue.
- `handle_process`, which only recolours the tool borders, is not part of this model.

=== FILE: document.dfy ===
/**
 * The persisted document: the model of layer types and variations, the tree-shaped value it is
 * written to and read from (`read_voxel`, `write_voxel`, `read_layer_type`, `read_model`,
 * `write_model`), and the choice of the active variation when a document is opened.
 */
module Document {
  import opened Options
  import opened Geometry
  import opened Ordering
  import opened Voxels

  /** The document tree (the source's `variant`); object keys are strings, as in JSON. */
  datatype Variant =
    | Null
    | Int(i: int)
    | Str(s: string)
    | List(items: seq<Variant>)
    | Obj(fields: map<string, Variant>)

  /** A named family of variations and the one edited last (`struct LayerType`). */
  datatype LayerType = LayerType(name: string, variations: map<string, Layer>, lastEdited: string)

  /** The whole document (`struct Model`). */
  datatype Model = Model(layerTypes: seq<LayerType>)

  // ---------------------------------------------------------------------------------------
  // Conversions of the document tree used by the readers.

  /** `v[key]`: an object yields the field or null when it is missing; anything else is an error. */
  function Field(v: Variant, key: string): Result<Variant>
  {
    if !v.Obj? then Err("type error: indexing a value that is not a map")
    else if key in v.fields then Ok(v.fields[key])
    else Ok(Null)
  }

  /** `v.as_map()`: null reads as the empty map. */
  function AsMap(v: Variant): Result<map<string, Variant>>
  {
    match v
    case Null => Ok(map[])
    case Obj(fields) => Ok(fields)
    case _ => Err("type error: expected a map")
  }

  /** `v.as_string_default()`: null reads as the empty string. */
  function AsStringDefault(v: Variant): Result<string>
  {
    match v
    case Null => Ok("")
    case Str(s) => Ok(s)
    case _ => Err("type error: expected a string")
  }

  /** `v.as_list_int()` */
  function AsListInt(v: Variant): Result<seq<int>>
  {
    if v.List? && forall k :: 0 <= k < |v.items| ==> v.items[k].Int? then
      Ok(seq(|v.items|, k requires 0 <= k < |v.items| && v.items[k].Int? => v.items[k].i))
    else
      Err("type error: expected a list of integers")
  }

  // ---------------------------------------------------------------------------------------
  // Colours. `graphics::color` is not part of this model; it is written as its four channels.

  function WriteColor(c: Color): Variant
  {
    List([Int(c.r), Int(c.g), Int(c.b), Int(c.a)])
  }

  function ReadColor(v: Variant): Result<Color>
  {
    var channels :- AsListInt(v);
    if |channels| == 4 && forall k :: 0 <= k < 4 ==> 0 <= channels[k] < 256 then
      Ok(Color(channels[0], channels[1], channels[2], channels[3]))
    else
      Err("bad color")
  }

  /** Every colour survives being written and read back. */
  lemma ColorRoundTrip(c: Color)
    ensures ReadColor(WriteColor(c)) == Ok(c)
  {
  }

  // ---------------------------------------------------------------------------------------
  // Voxels.

  /** `write_voxel`: `{"loc": [x, y, z], "color": ...}`; the layer tag is not written. */
  function WriteVoxel(p: Pos, v: Voxel): Variant
  {
    Obj(map["loc" := List([Int(p.x), Int(p.y), Int(p.z)]), "color" := WriteColor(v.color)])
  }

  /** `read_voxel`: a location that is not a list of exactly three integers is fatal. */
  function ReadVoxel(v: Variant): Result<(Pos, Voxel)>
  {
    var locNode :- Field(v, "loc");
    var loc :- AsListInt(locNode);
    if |loc| != 3 then Err("Bad location")
    else
      var colorNode :- Field(v, "color");
      var color :- ReadColor(colorNode);
      Ok((Pos(loc[0], loc[1], loc[2]), Voxel(color, Untagged)))
  }

  /** A written voxel reads back at the same cell with the same colour and no layer tag. */
  lemma VoxelRoundTrip(p: Pos, v: Voxel)
    ensures ReadVoxel(WriteVoxel(p, v)) == Ok((p, Voxel(v.color, Untagged)))
  {
    ColorRoundTrip(v.color);
  }

  /** The voxel loop of `read_layer_type`: `layer.map.insert(read_voxel(v))` keeps the first entry for a cell. */
  function ReadVoxels(items: seq<Variant>, acc: map<Pos, Voxel>): Result<map<Pos, Voxel>>
    decreases |items|
  {
    if items == [] then Ok(acc)
    else
      var entry :- ReadVoxel(items[0]);
      ReadVoxels(items[1..], if entry.0 in acc then acc else acc[entry.0 := entry.1])
  }

  /** `write_voxel` applied to the cells `keys` of `store`, in that order. */
  function WriteCells(keys: seq<Pos>, store: map<Pos, Voxel>): seq<Variant>
    requires forall p :: p in keys ==> p in store
  {
    if keys == [] then [] else [WriteVoxel(keys[0], store[keys[0]])] + WriteCells(keys[1..], store)
  }

  /** The voxel list `write_model` emits for one variation, in the map's key order. */
  function WriteVoxels(store: map<Pos, Voxel>): seq<Variant>
  {
    PosLeTotalOrder();
    WriteCells(Sorted(store.Keys, PosLe), store)
  }

  /** Reading back distinct written cells adds exactly those cells to the map being built. */
  lemma {:induction false} ReadWrittenCells(keys: seq<Pos>, store: map<Pos, Voxel>, acc: map<Pos, Voxel>)
    requires UntaggedStore(store)
    requires forall p :: p in keys ==> p in store && p !in acc
    requires forall i, j :: 0 <= i < j < |keys| ==> keys[i] != keys[j]
    ensures ReadVoxels(WriteCells(keys, store), acc) == Ok(acc + map p | p in keys :: store[p])
    decreases |keys|
  {
    if keys == [] {
      assert acc + (map p | p in keys :: store[p]) == acc;
    } else {
      var p := keys[0];
      var rest := keys[1..];
      var items := WriteCells(keys, store);
      assert items[0] == WriteVoxel(p, store[p]);
      assert items[1..] == WriteCells(rest, store);
      VoxelRoundTrip(p, store[p]);
      assert ReadVoxel(items[0]) == Ok((p, store[p]));
      var acc' := acc[p := store[p]];
      assert ReadVoxels(items, acc) == ReadVoxels(items[1..], acc');
      assert forall q :: q in rest ==> q != p by {
        forall q | q in rest ensures q != p {
          var j :| 0 <= j < |rest| && rest[j] == q;
          assert keys[j + 1] == q;
        }
      }
      ReadWrittenCells(rest, store, acc');
      AddFirstKey(acc, store, keys);
    }
  }

  /** Adding the entries of `keys` one at a time, first key first. */
  lemma AddFirstKey<K, V>(acc: map<K, V>, src: map<K, V>, keys: seq<K>)
    requires keys != [] && forall k :: k in keys ==> k in src
    ensures acc[keys[0] := src[keys[0]]] + (map j | j in keys[1..] :: src[j]) == acc + (map j | j in keys :: src[j])
  {
  }

  /** Copying the entries of a key list that covers `src` rebuilds `src`. */
  lemma CopyAllKeys<K, V>(keys: seq<K>, src: map<K, V>)
    requires forall k :: k in keys <==> k in src
    ensures map[] + (map k | k in keys :: src[k]) == src
  {
  }

  /** Every untagged layer map survives being written and read back. */
  lemma StoreRoundTrip(store: map<Pos, Voxel>)
    requires UntaggedStore(store)
    ensures ReadVoxels(WriteVoxels(store), map[]) == Ok(store)
  {
    PosLeTotalOrder();
    var keys := Sorted(store.Keys, PosLe);
    SortedDistinct(keys, PosLe);
    ReadWrittenCells(keys, store, map[]);
    CopyAllKeys(keys, store);
  }


  // ---------------------------------------------------------------------------------------
  // Variations and layer types.

  /** The node `write_model` emits for one variation: `{"name": key, "voxels": [...]}`. */
  function WriteLayer(key: string, layer: Layer): Variant
  {
    Obj(map["name" := Str(key), "voxels" := List(WriteVoxels(layer.store))])
  }

  /** One variation in `read_layer_type`: its voxels are read only when "voxels" is a list. */
  function ReadLayer(key: string, node: Variant): Result<Layer>
  {
    var voxelsNode :- Field(node, "voxels");
    if voxelsNode.List? then
      var store :- ReadVoxels(voxelsNode.items, map[]);
      Ok(Layer(key, store))
    else
      Ok(Layer(key, map[]))
  }

  /** The variation loop of `read_layer_type`, in the key order of the variations map. */
  function ReadVariations(keys: seq<string>, nodes: map<string, Variant>, acc: map<string, Layer>): Result<map<string, Layer>>
    requires forall k :: k in keys ==> k in nodes
  {
    if keys == [] then Ok(acc)
    else
      var layer :- ReadLayer(keys[0], nodes[keys[0]]);
      ReadVariations(keys[1..], nodes, acc[keys[0] := layer])
  }

  /** The single empty variation a layer type without variations is given. */
  const DefaultVariations: map<string, Layer> := map["default" := Layer("default", map[])]

  /**
   * `read_layer_type`: a missing `last_edited_variation` reads as ""; a null `variations` gives
   * one empty variation named "default". The name is filled in by the caller.
   */
  function ReadLayerType(v: Variant): Result<LayerType>
  {
    var lastNode :- Field(v, "last_edited_variation");
    var last :- AsStringDefault(lastNode);
    var variationsNode :- Field(v, "variations");
    var variations :- ReadVariationsNode(variationsNode);
    Ok(LayerType("", variations, last))
  }

  /** The `variations` part of `read_layer_type`. */
  function ReadVariationsNode(node: Variant): Result<map<string, Layer>>
  {
    if node.Null? then Ok(DefaultVariations)
    else
      var nodes :- AsMap(node);
      StrLeTotalOrder();
      ReadVariations(Sorted(nodes.Keys, StrLe), nodes, map[])
  }

  /** The variations node of `write_model`: one entry per variation, under its key. */
  function WriteVariations(variations: map<string, Layer>): map<string, Variant>
  {
    map k | k in variations :: WriteLayer(k, variations[k])
  }

  /** The node `write_model` emits for one layer type. */
  function WriteLayerType(lt: LayerType): Variant
  {
    Obj(map[
      "name" := Str(lt.name),
      "last_edited_variation" := Str(lt.lastEdited),
      "variations" := Obj(WriteVariations(lt.variations))])
  }

  // ---------------------------------------------------------------------------------------
  // The model.

  /** The loop of `read_model`, over the layer-type keys in map order; each key names its layer type. */
  function ReadLayerTypes(keys: seq<string>, nodes: map<string, Variant>): Result<seq<LayerType>>
    requires forall k :: k in keys ==> k in nodes
  {
    if keys == [] then Ok([])
    else
      var lt :- ReadLayerType(nodes[keys[0]]);
      var rest :- ReadLayerTypes(keys[1..], nodes);
      Ok([lt.(name := keys[0])] + rest)
  }

  /** `read_model`: layer types come out in the key order of the "layers" map. */
  function ReadModel(v: Variant): Result<Model>
  {
    var layersNode :- Field(v, "layers");
    var nodes :- AsMap(layersNode);
    StrLeTotalOrder();
    var layerTypes :- ReadLayerTypes(Sorted(nodes.Keys, StrLe), nodes);
    Ok(Model(layerTypes))
  }

  /** The "layers" node of `write_model`: `layers_node[name] = ...` in model order, so a later equal name replaces an earlier one. */
  function WriteLayerTypes(lts: seq<LayerType>): map<string, Variant>
  {
    if lts == [] then map[]
    else WriteLayerTypes(lts[..|lts| - 1])[lts[|lts| - 1].name := WriteLayerType(lts[|lts| - 1])]
  }

  /** `write_model` */
  function WriteModel(m: Model): Variant
  {
    Obj(map["layers" := Obj(WriteLayerTypes(m.layerTypes))])
  }

  // ---------------------------------------------------------------------------------------
  // Round trip.

  function Names(lts: seq<LayerType>): (r: seq<string>)
    ensures |r| == |lts|
    ensures forall i :: 0 <= i < |lts| ==> r[i] == lts[i].name
  {
    if lts == [] then [] else [lts[0].name] + Names(lts[1..])
  }

  /** Each variation is stored under its own name and holds untagged voxels. */
  ghost predicate WellFormedLayerType(lt: LayerType)
  {
    forall k :: k in lt.variations ==> lt.variations[k].name == k && UntaggedStore(lt.variations[k].store)
  }

  /**
   * The models that `read_model` produces: layer types strictly in name order (so names are
   * distinct) and well-formed variations.
   */
  ghost predicate WellFormedModel(m: Model)
  {
    && StrictlySorted(Names(m.layerTypes), StrLe)
    && forall i :: 0 <= i < |m.layerTypes| ==> WellFormedLayerType(m.layerTypes[i])
  }

  /** A written variation reads back as itself. */
  lemma LayerRoundTrip(key: string, layer: Layer)
    requires layer.name == key && UntaggedStore(layer.store)
    ensures ReadLayer(key, WriteLayer(key, layer)) == Ok(layer)
  {
    var node := WriteLayer(key, layer);
    assert Field(node, "voxels") == Ok(List(WriteVoxels(layer.store)));
    StoreRoundTrip(layer.store);
  }

  lemma {:induction false} ReadWrittenVariations(keys: seq<string>, variations: map<string, Layer>, acc: map<string, Layer>)
    requires forall k :: k in keys ==> k in variations
    requires forall k :: k in variations ==> variations[k].name == k && UntaggedStore(variations[k].store)
    ensures ReadVariations(keys, WriteVariations(variations), acc) == Ok(acc + map k | k in keys :: variations[k])
    decreases |keys|
  {
    var nodes := WriteVariations(variations);
    if keys == [] {
      assert acc + (map k | k in keys :: variations[k]) == acc;
    } else {
      var k := keys[0];
      LayerRoundTrip(k, variations[k]);
      assert ReadLayer(k, nodes[k]) == Ok(variations[k]);
      assert ReadVariations(keys, nodes, acc) == ReadVariations(keys[1..], nodes, acc[k := variations[k]]);
      ReadWrittenVariations(keys[1..], variations, acc[k := variations[k]]);
      AddFirstKey(acc, variations, keys);
    }
  }

  /** A well-formed variations map reads back as itself. */
  lemma VariationsRoundTrip(variations: map<string, Layer>)
    requires forall k :: k in variations ==> variations[k].name == k && UntaggedStore(variations[k].store)
    ensures ReadVariationsNode(Obj(WriteVariations(variations))) == Ok(variations)
  {
    var nodes := WriteVariations(variations);
    StrLeTotalOrder();
    var keys := Sorted(nodes.Keys, StrLe);
    assert ReadVariations(keys, nodes, map[]) == Ok(variations) by {
      assert nodes.Keys == variations.Keys;
      ReadWrittenVariations(keys, variations, map[]);
      CopyAllKeys(keys, variations);
    }
    ReadVariationsOfObject(nodes, variations);
  }

  /** `ReadVariationsNode` on an object reads its entries in key order. */
  lemma ReadVariationsOfObject(nodes: map<string, Variant>, variations: map<string, Layer>)
    requires TotalOrder(StrLe)
    requires forall k :: k in Sorted(nodes.Keys, StrLe) ==> k in nodes
    requires ReadVariations(Sorted(nodes.Keys, StrLe), nodes, map[]) == Ok(variations)
    ensures ReadVariationsNode(Obj(nodes)) == Ok(variations)
  {
    assert AsMap(Obj(nodes)) == Ok(nodes);
  }


  /** A well-formed layer type reads back as itself, except that the name comes from its key. */
  lemma LayerTypeRoundTrip(lt: LayerType)
    requires WellFormedLayerType(lt)
    ensures ReadLayerType(WriteLayerType(lt)) == Ok(lt.(name := ""))
  {
    var node := WriteLayerType(lt);
    assert Field(node, "last_edited_variation") == Ok(Str(lt.lastEdited));
    assert Field(node, "variations") == Ok(Obj(WriteVariations(lt.variations)));
    VariationsRoundTrip(lt.variations);
  }

  /** The names of the layer types, as a set. */
  function NameSet(lts: seq<LayerType>): (r: set<string>)
    ensures forall i :: 0 <= i < |lts| ==> lts[i].name in r
  {
    if lts == [] then {} else NameSet(lts[..|lts| - 1]) + {lts[|lts| - 1].name}
  }

  lemma {:induction false} NameSetOnlyNames(lts: seq<LayerType>, k: string)
    requires k in NameSet(lts)
    ensures exists i :: 0 <= i < |lts| && lts[i].name == k
    decreases |lts|
  {
    var n := |lts| - 1;
    if k != lts[n].name {
      NameSetOnlyNames(lts[..n], k);
      var i :| 0 <= i < n && lts[..n][i].name == k;
      assert lts[i].name == k;
    }
  }

  /** The written "layers" node has one entry per layer-type name. */
  lemma {:induction false} WrittenLayerTypeKeys(lts: seq<LayerType>)
    ensures WriteLayerTypes(lts).Keys == NameSet(lts)
    decreases |lts|
  {
    if lts != [] {
      WrittenLayerTypeKeys(lts[..|lts| - 1]);
    }
  }

  /** With distinct names, the written "layers" node holds each layer type under its name. */
  lemma {:induction false} WrittenLayerTypes(lts: seq<LayerType>, i: int)
    requires DistinctNames(lts)
    requires 0 <= i < |lts|
    ensures lts[i].name in WriteLayerTypes(lts)
    ensures WriteLayerTypes(lts)[lts[i].name] == WriteLayerType(lts[i])
    decreases |lts|
  {
    WrittenLayerTypeKeys(lts);
    var n := |lts| - 1;
    if i < n {
      var prefix := lts[..n];
      assert DistinctNames(prefix) by {
        forall a, b | 0 <= a < b < |prefix| ensures prefix[a].name != prefix[b].name {
          assert prefix[a] == lts[a] && prefix[b] == lts[b];
        }
      }
      WrittenLayerTypes(prefix, i);
      assert prefix[i] == lts[i];
      assert lts[i].name != lts[n].name;
    }
  }

  lemma {:induction false} ReadWrittenLayerTypes(lts: seq<LayerType>, nodes: map<string, Variant>)
    requires forall i :: 0 <= i < |lts| ==> lts[i].name in nodes && nodes[lts[i].name] == WriteLayerType(lts[i])
    requires forall i :: 0 <= i < |lts| ==> WellFormedLayerType(lts[i])
    ensures forall k :: k in Names(lts) ==> k in nodes
    ensures ReadLayerTypes(Names(lts), nodes) == Ok(lts)
    decreases |lts|
  {
    if lts != [] {
      var rest := lts[1..];
      assert forall i :: 0 <= i < |rest| ==> rest[i] == lts[i + 1];
      ReadWrittenLayerTypes(rest, nodes);
      assert Names(lts)[1..] == Names(rest);
      LayerTypeRoundTrip(lts[0]);
      assert lts[0].(name := "").(name := lts[0].name) == lts[0];
      assert [lts[0]] + rest == lts;
    }
  }

  /**
   * Saving and reloading reproduces a model exactly when its layer types are in name order
   * with distinct names and every variation is stored under its own name: `as_map` hands the
   * layer types back in key order and `read_layer_type` takes variation names from the keys.
   */
  lemma ModelRoundTrip(m: Model)
    requires WellFormedModel(m)
    ensures ReadModel(WriteModel(m)) == Ok(m)
  {
    var lts := m.layerTypes;
    var nodes := WriteLayerTypes(lts);
    StrLeTotalOrder();
    WrittenKeysInOrder(lts);
    SortedNamesDistinct(lts);
    WrittenNodes(lts);
    ReadWrittenLayerTypes(lts, nodes);
    assert Field(WriteModel(m), "layers") == Ok(Obj(nodes));
    ReadModelOfLayers(WriteModel(m), nodes, lts);
  }

  /** Layer types in strict name order come back from the written "layers" node in the same order. */
  lemma WrittenKeysInOrder(lts: seq<LayerType>)
    requires TotalOrder(StrLe)
    requires StrictlySorted(Names(lts), StrLe)
    ensures Sorted(WriteLayerTypes(lts).Keys, StrLe) == Names(lts)
  {
    var names := Names(lts);
    var nodes := WriteLayerTypes(lts);
    var keys := Sorted(nodes.Keys, StrLe);
    WrittenLayerTypeKeys(lts);
    forall k ensures k in keys <==> k in names {
      if k in nodes {
        NameSetOnlyNames(lts, k);
      }
    }
    SortedUnique(keys, names, StrLe);
  }

  /** No two layer types share a name. */
  ghost predicate DistinctNames(lts: seq<LayerType>)
  {
    forall i, j :: 0 <= i < j < |lts| ==> lts[i].name != lts[j].name
  }

  /** Layer types in strict name order have distinct names. */
  lemma SortedNamesDistinct(lts: seq<LayerType>)
    requires StrictlySorted(Names(lts), StrLe)
    ensures DistinctNames(lts)
  {
    var names := Names(lts);
    forall i, j | 0 <= i < j < |lts| ensures lts[i].name != lts[j].name {
      assert names[i] != names[j];
    }
  }

  /** Layer types with distinct names are each written under their own name. */
  lemma WrittenNodes(lts: seq<LayerType>)
    requires DistinctNames(lts)
    ensures forall i :: 0 <= i < |lts| ==>
      lts[i].name in WriteLayerTypes(lts) && WriteLayerTypes(lts)[lts[i].name] == WriteLayerType(lts[i])
  {
    forall i | 0 <= i < |lts|
      ensures lts[i].name in WriteLayerTypes(lts) && WriteLayerTypes(lts)[lts[i].name] == WriteLayerType(lts[i])
    {
      WrittenLayerTypes(lts, i);
    }
  }

  /** `read_model` on a document whose "layers" node is the object `nodes`. */
  lemma ReadModelOfLayers(v: Variant, nodes: map<string, Variant>, lts: seq<LayerType>)
    requires Field(v, "layers") == Ok(Obj(nodes))
    requires TotalOrder(StrLe)
    requires forall k :: k in Sorted(nodes.Keys, StrLe) ==> k in nodes
    requires ReadLayerTypes(Sorted(nodes.Keys, StrLe), nodes) == Ok(lts)
    ensures ReadModel(v) == Ok(Model(lts))
  {
    assert AsMap(Obj(nodes)) == Ok(nodes);
  }

  // ---------------------------------------------------------------------------------------
  // What the readers produce.

  lemma {:induction false} ReadVoxelsUntagged(items: seq<Variant>, acc: map<Pos, Voxel>)
    requires UntaggedStore(acc)
    ensures ReadVoxels(items, acc).Ok? ==> UntaggedStore(ReadVoxels(items, acc).value)
    decreases |items|
  {
    if items != [] && ReadVoxel(items[0]).Ok? {
      var entry := ReadVoxel(items[0]).value;
      ReadVoxelsUntagged(items[1..], if entry.0 in acc then acc else acc[entry.0 := entry.1]);
    }
  }

  /** Duplicate locations in one variation keep the first entry (`insert` does not overwrite). */
  lemma DuplicateLocationKeepsFirst(a: Variant, b: Variant, p: Pos, va: Voxel, vb: Voxel)
    requires ReadVoxel(a) == Ok((p, va)) && ReadVoxel(b) == Ok((p, vb))
    ensures ReadVoxels([a, b], map[]) == Ok(map[p := va])
  {
    var first := map[p := va];
    assert [a, b][1..] == [b];
    assert ReadVoxels([a, b], map[]) == ReadVoxels([b], first);
    assert [b][1..] == [];
    assert ReadVoxels([b], first) == ReadVoxels([], first);
  }

  ghost predicate WellFormedVariations(variations: map<string, Layer>)
  {
    forall k :: k in variations ==> variations[k].name == k && UntaggedStore(variations[k].store)
  }

  lemma {:induction false} ReadVariationsWellFormed(keys: seq<string>, nodes: map<string, Variant>, acc: map<string, Layer>)
    requires forall k :: k in keys ==> k in nodes
    requires WellFormedVariations(acc)
    ensures ReadVariations(keys, nodes, acc).Ok? ==> WellFormedVariations(ReadVariations(keys, nodes, acc).value)
    decreases |keys|
  {
    if keys != [] {
      var r := ReadLayer(keys[0], nodes[keys[0]]);
      if r.Ok? {
        var voxelsNode := Field(nodes[keys[0]], "voxels");
        if voxelsNode.Ok? && voxelsNode.value.List? {
          ReadVoxelsUntagged(voxelsNode.value.items, map[]);
        }
        ReadVariationsWellFormed(keys[1..], nodes, acc[keys[0] := r.value]);
      }
    }
  }

  /**
   * `read_layer_type` yields well-formed variations, and a null "variations" node yields exactly
   * one empty variation named "default".
   */
  lemma ReadLayerTypeWellFormed(v: Variant)
    ensures ReadLayerType(v).Ok? ==> WellFormedLayerType(ReadLayerType(v).value)
    ensures ReadLayerType(v).Ok? && Field(v, "variations") == Ok(Null) ==>
      ReadLayerType(v).value.variations == map["default" := Layer("default", map[])]
  {
    var node := Field(v, "variations");
    if node.Ok? {
      ReadVariationsNodeWellFormed(node.value);
    }
  }

  /** The variations node reads as well-formed variations, whether it is null or a map. */
  lemma ReadVariationsNodeWellFormed(node: Variant)
    ensures ReadVariationsNode(node).Ok? ==> WellFormedVariations(ReadVariationsNode(node).value)
  {
    if !node.Null? {
      var nodes := AsMap(node);
      if nodes.Ok? {
        StrLeTotalOrder();
        ReadVariationsWellFormed(Sorted(nodes.value.Keys, StrLe), nodes.value, map[]);
      }
    }
  }

  lemma {:induction false} ReadLayerTypesNamed(keys: seq<string>, nodes: map<string, Variant>)
    requires forall k :: k in keys ==> k in nodes
    ensures ReadLayerTypes(keys, nodes).Ok? ==> Names(ReadLayerTypes(keys, nodes).value) == keys
    ensures ReadLayerTypes(keys, nodes).Ok? ==>
      forall i :: 0 <= i < |keys| ==> WellFormedLayerType(ReadLayerTypes(keys, nodes).value[i])
    decreases |keys|
  {
    if keys != [] && ReadLayerTypes(keys, nodes).Ok? {
      ReadLayerTypesNamed(keys[1..], nodes);
      ReadLayerTypeWellFormed(nodes[keys[0]]);
      var lts := ReadLayerTypes(keys, nodes).value;
      assert lts[1..] == ReadLayerTypes(keys[1..], nodes).value;
      assert Names(lts) == [keys[0]] + Names(lts[1..]);
      assert keys == [keys[0]] + keys[1..];
    }
  }

  /** `read_model` yields layer types in strict name order, each with well-formed variations. */
  lemma ReadModelWellFormed(v: Variant)
    ensures ReadModel(v).Ok? ==> WellFormedModel(ReadModel(v).value)
  {
    var layersNode := Field(v, "layers");
    if layersNode.Ok? {
      var nodes := AsMap(layersNode.value);
      if nodes.Ok? {
        StrLeTotalOrder();
        ReadLayerTypesNamed(Sorted(nodes.value.Keys, StrLe), nodes.value);
      }
    }
  }

  // ---------------------------------------------------------------------------------------
  // Opening a document.

  /**
   * The variation the editor activates for a layer type: the last edited one when it exists,
   * otherwise the first by name (`variations.begin()`).
   */
  function ActiveVariation(lt: LayerType): (r: Layer)
    requires lt.variations != map[]
    ensures lt.lastEdited in lt.variations ==> r == lt.variations[lt.lastEdited]
    ensures lt.lastEdited !in lt.variations ==>
      exists k :: k in lt.variations && r == lt.variations[k] && forall j :: j in lt.variations ==> StrLe(k, j)
  {
    if lt.lastEdited in lt.variations then lt.variations[lt.lastEdited]
    else
      StrLeTotalOrder();
      assert lt.variations.Keys != {} by {
        var k :| k in lt.variations;
      }
      lt.variations[Minimum(lt.variations.Keys, StrLe)]
  }
}

=== FILE: editor.dfy ===
/**
 * The voxel editor: its active layers and their composite, the cursor, the tool, the
 * symmetric flag, the undo and redo stacks, and opening and saving a document.
 */
module Editor {
  import opened Options
  import opened Geometry
  import opened Ordering
  import opened Voxels
  import opened Document
  import opened History

  /** `VOXEL_TOOL` */
  datatype Tool = Pencil | PencilAbove | Picker

  /**
   * `voxel_editor::tool()`: shift turns the pencil into the pencil-above tool, otherwise ctrl
   * turns either pencil into the picker; the picker is never changed.
   */
  function EffectiveTool(base: Tool, shift: bool, ctrl: bool): (r: Tool)
    ensures !shift && !ctrl ==> r == base
    ensures base == Picker ==> r == Picker
    ensures r == Pencil <==> base == Pencil && !shift && !ctrl
    ensures r == PencilAbove <==> (base == Pencil && shift) || (base == PencilAbove && !ctrl)
  {
    if shift && base == Pencil then PencilAbove
    else if ctrl && (base == Pencil || base == PencilAbove) then Picker
    else base
  }

  /** One step of `on_save`: the active layer goes back into its layer type as the last edited variation. */
  function SaveLayer(lt: LayerType, layer: Layer): (r: LayerType)
    ensures r.name == lt.name && r.lastEdited == layer.name
    ensures r.variations.Keys == lt.variations.Keys + {layer.name}
    ensures r.variations[layer.name] == layer
    ensures forall k :: k in lt.variations && k != layer.name ==> r.variations[k] == lt.variations[k]
  {
    lt.(variations := lt.variations[layer.name := layer], lastEdited := layer.name)
  }

  /** The model `on_save` writes: every layer type with its active layer saved into it. */
  function SaveAll(lts: seq<LayerType>, layers: seq<Layer>): (r: seq<LayerType>)
    requires |lts| == |layers|
    ensures |r| == |lts|
  {
    if lts == [] then [] else [SaveLayer(lts[0], layers[0])] + SaveAll(lts[1..], layers[1..])
  }

  /** Layer type `i` of the saved model is layer type `i` with active layer `i` saved into it. */
  lemma {:induction false} SaveAllAt(lts: seq<LayerType>, layers: seq<Layer>)
    requires |lts| == |layers|
    ensures forall i :: 0 <= i < |lts| ==> SaveAll(lts, layers)[i] == SaveLayer(lts[i], layers[i])
    decreases |lts|
  {
    if lts != [] {
      SaveAllAt(lts[1..], layers[1..]);
      forall i | 1 <= i < |lts| ensures SaveAll(lts, layers)[i] == SaveLayer(lts[i], layers[i]) {
        assert SaveAll(lts, layers)[i] == SaveAll(lts[1..], layers[1..])[i - 1];
        assert lts[1..][i - 1] == lts[i] && layers[1..][i - 1] == layers[i];
      }
    }
  }

  /**
   * Saving keeps a well-formed model well-formed: names do not change, and each active layer
   * is stored under its own name.
   */
  lemma SaveAllWellFormed(lts: seq<LayerType>, layers: seq<Layer>)
    requires |lts| == |layers|
    requires WellFormedModel(Model(lts))
    requires forall i :: 0 <= i < |layers| ==> UntaggedStore(layers[i].store)
    ensures WellFormedModel(Model(SaveAll(lts, layers)))
  {
    var saved := SaveAll(lts, layers);
    SaveAllAt(lts, layers);
    assert Names(saved) == Names(lts);
    forall i | 0 <= i < |saved| ensures WellFormedLayerType(saved[i]) {
      assert WellFormedLayerType(lts[i]);
    }
  }

  /** Reopening a saved model activates exactly the layers that were active when it was saved. */
  lemma ReopenAfterSave(lts: seq<LayerType>, layers: seq<Layer>, i: int)
    requires |lts| == |layers| && 0 <= i < |lts|
    ensures SaveAll(lts, layers)[i] == SaveLayer(lts[i], layers[i])
    ensures ActiveVariation(SaveAll(lts, layers)[i]) == layers[i]
  {
    SaveAllAt(lts, layers);
  }

  /**
   * What `on_save` guarantees about the document it writes: it reads back as the saved model,
   * which is again well-formed (reopening it then activates the layers that were active:
   * `ReopenAfterSave`).
   */
  lemma SaveRoundTrip(lts: seq<LayerType>, layers: seq<Layer>)
    requires |lts| == |layers|
    requires WellFormedModel(Model(lts))
    requires forall i :: 0 <= i < |layers| ==> UntaggedStore(layers[i].store)
    ensures WellFormedModel(Model(SaveAll(lts, layers)))
    ensures ReadModel(WriteModel(Model(SaveAll(lts, layers)))) == Ok(Model(SaveAll(lts, layers)))
  {
    SaveAllWellFormed(lts, layers);
    ModelRoundTrip(Model(SaveAll(lts, layers)));
  }

  /** The active variation is one of the layer type's variations. */
  lemma ActiveVariationIsStored(lt: LayerType)
    requires lt.variations != map[]
    ensures exists k :: k in lt.variations && ActiveVariation(lt) == lt.variations[k]
  {
    if lt.lastEdited in lt.variations {
      assert ActiveVariation(lt) == lt.variations[lt.lastEdited];
    }
  }

  /** The layer the editor opens with when there is no file name: `Layer()`. */
  const BlankLayer := Layer("", map[])

  class VoxelEditor {
    var layers: seq<Layer>          // layers_
    var current: int                // current_layer_
    var highlight: int              // highlight_layer_
    var model: Model                // model_
    var fname: string               // fname_
    var voxels: map<Pos, Voxel>     // voxels_
    var cursor: Option<Pos>         // cursor_
    var undoStack: seq<Command>     // undo_
    var redoStack: seq<Command>     // redo_
    var tool: Tool                  // tool_
    var symmetric: bool             // symmetric_

    /** The state that commands read and write. */
    function Snapshot(): Session
      reads this`layers, this`current, this`symmetric
    {
      Session(layers, current, symmetric)
    }

    function Log(): Stacks
      reads this`undoStack, this`redoStack
    {
      Stacks(undoStack, redoStack)
    }

    /**
     * The editor's invariant: the composite is always rebuilt from the active layers, every
     * recorded command fits the layers, the stores hold untagged voxels, and a document
     * opened from a file keeps one active layer per layer type.
     */
    ghost predicate Valid()
      reads this`layers, this`current, this`symmetric, this`undoStack, this`redoStack, this`voxels, this`model, this`fname
    {
      ValidSession() && ValidModel()
    }

    /** The session part of `Valid`. */
    ghost predicate ValidSession()
      reads this`layers, this`current, this`symmetric, this`undoStack, this`redoStack, this`voxels
    {
      && SessionOk(Snapshot())
      && StacksFit(Log(), |layers|)
      && voxels == Merge(layers)
      && (forall i :: 0 <= i < |layers| ==> UntaggedStore(layers[i].store))
    }

    /** The document part of `Valid`. */
    ghost predicate ValidModel()
      reads this`layers, this`model, this`fname
    {
      fname != "" ==> |model.layerTypes| == |layers| && WellFormedModel(model)
    }

    /**
     * `voxel_editor(r, fname)` with the parsed file `doc`: a blank layer without a file name,
     * otherwise the active variation of each layer type of the model read from `doc`.
     */
    constructor (fname: string, doc: Variant)
      requires fname != "" ==> ReadModel(doc).Ok?
      requires fname != "" ==> forall i :: 0 <= i < |ReadModel(doc).value.layerTypes| ==>
        ReadModel(doc).value.layerTypes[i].variations != map[]
      ensures Valid()
      ensures this.fname == fname && current == 0 && highlight == -1 && tool == Pencil && !symmetric
      ensures undoStack == [] && redoStack == [] && cursor == None
      ensures fname == "" ==> layers == [BlankLayer] && model == Model([])
      ensures fname != "" ==> model == ReadModel(doc).value
      ensures fname != "" ==> |layers| == |model.layerTypes|
      ensures fname != "" ==> forall i :: 0 <= i < |layers| ==> layers[i] == ActiveVariation(model.layerTypes[i])
    {
      var m, ls := Open(fname, doc);
      var composite := Composite(ls);
      layers := ls;
      current := 0;
      highlight := -1;
      model := m;
      this.fname := fname;
      voxels := composite;
      cursor := None;
      undoStack := [];
      redoStack := [];
      tool := Pencil;
      symmetric := false;
    }

    /** The model and the active layers the constructor starts from. */
    static method Open(fname: string, doc: Variant) returns (m: Model, ls: seq<Layer>)
      requires fname != "" ==> ReadModel(doc).Ok?
      requires fname != "" ==> forall i :: 0 <= i < |ReadModel(doc).value.layerTypes| ==>
        ReadModel(doc).value.layerTypes[i].variations != map[]
      ensures fname == "" ==> ls == [BlankLayer] && m == Model([])
      ensures fname != "" ==> m == ReadModel(doc).value && WellFormedModel(m)
      ensures fname != "" ==> |ls| == |m.layerTypes|
      ensures fname != "" ==> forall i :: 0 <= i < |ls| ==> ls[i] == ActiveVariation(m.layerTypes[i])
      ensures forall i :: 0 <= i < |ls| ==> UntaggedStore(ls[i].store)
    {
      if fname == "" {
        m := Model([]);
        ls := [BlankLayer];
      } else {
        m := ReadModel(doc).value;
        ReadModelWellFormed(doc);
        ls := ActiveLayers(m.layerTypes);
      }
    }

    /** The loop of the constructor: the active variation of each layer type, in order. */
    static method ActiveLayers(lts: seq<LayerType>) returns (ls: seq<Layer>)
      requires forall i :: 0 <= i < |lts| ==> lts[i].variations != map[]
      ensures |ls| == |lts|
      ensures forall i :: 0 <= i < |lts| ==> ls[i] == ActiveVariation(lts[i])
      ensures WellFormedModel(Model(lts)) ==> forall i :: 0 <= i < |ls| ==> UntaggedStore(ls[i].store)
    {
      ls := [];
      var n := 0;
      while n < |lts|
        invariant 0 <= n <= |lts|
        invariant |ls| == n
        invariant forall i :: 0 <= i < n ==> ls[i] == ActiveVariation(lts[i])
      {
        ls := ls + [ActiveVariation(lts[n])];
        n := n + 1;
      }
      if WellFormedModel(Model(lts)) {
        forall i | 0 <= i < |ls| ensures UntaggedStore(ls[i].store) {
          assert WellFormedLayerType(lts[i]);
          ActiveVariationIsStored(lts[i]);
        }
      }
    }

    /**
     * `build_voxels`: the composite is rebuilt from scratch by inserting every layer's cells
     * in layer order, each tagged with its layer index.
     */
    method BuildVoxels()
      modifies this`voxels
      ensures voxels == Merge(layers)
    {
      voxels := Composite(layers);
    }

    /** The loop of `build_voxels`: each layer's map inserted into the composite in index order. */
    static method Composite(layers: seq<Layer>) returns (composite: map<Pos, Voxel>)
      ensures composite == Merge(layers)
    {
      composite := map[];
      var n := 0;
      while n < |layers|
        invariant 0 <= n <= |layers|
        invariant composite == Merge(layers[..n])
      {
        composite := InsertLayer(composite, layers[n].store, n);
        MergePrefix(layers, n);
        n := n + 1;
      }
      assert layers[..n] == layers;
    }

    /** The inner loop of `build_voxels`: insert every cell of layer `n`, tagged `n`, keeping cells already present. */
    static method InsertLayer(base: map<Pos, Voxel>, store: map<Pos, Voxel>, n: int) returns (composite: map<Pos, Voxel>)
      ensures composite == Overlay(base, store, n, store.Keys)
    {
      composite := base;
      var remaining := store.Keys;
      while remaining != {}
        invariant remaining <= store.Keys
        invariant composite == Overlay(base, store, n, store.Keys - remaining)
        decreases remaining
      {
        var q :| q in remaining;
        OverlayInsert(base, store, n, store.Keys - remaining, q);
        if q !in composite {
          composite := composite[q := store[q].(nlayer := n)];
        }
        assert store.Keys - (remaining - {q}) == (store.Keys - remaining) + {q};
        remaining := remaining - {q};
      }
    }

    /** `set_voxel`: write the cell (and under symmetric mode its mirror) in the current layer, then rebuild. */
    method SetVoxel(pos: Pos, voxel: Voxel)
      requires Valid() && 0 <= current < |layers| && voxel.nlayer == Untagged
      modifies this`layers, this`voxels
      ensures Valid()
      ensures Snapshot() == SetVoxelEffect(old(Snapshot()), pos, voxel)
    {
      var store := layers[current].store;
      store := store[pos := voxel];
      if symmetric {
        var opposite := pos.(x := -1 * pos.x - 1);
        store := store[opposite := voxel];
      }
      layers := layers[current := layers[current].(store := store)];
      BuildVoxels();
    }

    /** `delete_voxel`: erase the cell (and under symmetric mode its mirror) from the current layer, then rebuild. */
    method DeleteVoxel(pos: Pos)
      requires Valid() && 0 <= current < |layers|
      modifies this`layers, this`voxels
      ensures Valid()
      ensures Snapshot() == DeleteVoxelEffect(old(Snapshot()), pos)
    {
      var store := layers[current].store;
      store := store - {pos};
      if symmetric {
        var opposite := pos.(x := -1 * pos.x - 1);
        store := store - {opposite};
      }
      layers := layers[current := layers[current].(store := store)];
      BuildVoxels();
    }

    /** `set_cursor`: reports whether the cursor moved. */
    method SetCursor(pos: Pos) returns (moved: bool)
      modifies this`cursor
      ensures cursor == Some(pos)
      ensures moved <==> old(cursor) != Some(pos)
    {
      if cursor == Some(pos) {
        return false;
      }
      cursor := Some(pos);
      return true;
    }

    /** The inner loop of `get_selected_voxel`: does `p` lie on the ray through `pos` along `facing`? */
    static method OnRay(p: Pos, pos: Pos, facing: Axis) returns (isEqual: bool)
      ensures isEqual <==> AgreeOff(p, pos, facing)
    {
      isEqual := true;
      var n := 0;
      while n != 3
        invariant 0 <= n <= 3
        invariant isEqual <==> forall m: Axis :: m < n && m != facing ==> Coord(pos, m) == Coord(p, m)
      {
        if n != facing && Coord(pos, n) != Coord(p, n) {
          isEqual := false;
          break;
        }
        n := n + 1;
      }
    }

    /**
     * `get_selected_voxel`: scan the composite for the cells on the ray through `pos` along
     * `facing` and keep the one furthest along `reverse`'s direction; `pos` when there is none.
     */
    method GetSelectedVoxel(pos: Pos, facing: Axis, reverse: bool) returns (result: Pos)
      ensures IsSelection(voxels, pos, facing, reverse, result)
    {
      var flip := if reverse then -1 else 1;
      result := pos;
      var found := false;
      var bestValue := 0;
      var remaining := voxels.Keys;
      while remaining != {}
        invariant remaining <= voxels.Keys
        invariant AgreeOff(result, pos, facing)
        invariant found <==> exists q :: q in voxels && q !in remaining && AgreeOff(q, pos, facing)
        invariant found ==> result in voxels && bestValue == Depth(result, facing, reverse)
        invariant found ==> forall q :: q in voxels && q !in remaining && AgreeOff(q, pos, facing) ==>
          Depth(q, facing, reverse) <= bestValue
        invariant !found ==> result == pos
        decreases remaining
      {
        var p :| p in remaining;
        remaining := remaining - {p};
        var isEqual := OnRay(p, pos, facing);
        if !isEqual {
          continue;
        }
        var value := flip * Coord(p, facing);
        if !found || value >= bestValue {
          bestValue := value;
          result := p;
          found := true;
        }
      }
    }

    /** A command's `redo` closure. */
    method Forward(c: Command)
      requires Valid() && Fits(c, |layers|)
      modifies this`layers, this`voxels, this`symmetric, this`current
      ensures Valid()
      ensures Snapshot() == Apply(old(Snapshot()), c)
    {
      match c
      case SetVoxel(p, v, _) => SetVoxel(p, v);
      case DeleteVoxel(p, _) => DeleteVoxel(p);
      case SetSymmetric(value, _) => symmetric := value;
      case SelectLayer(l, _) => current := l;
    }

    /** A command's `undo` closure. */
    method Backward(c: Command)
      requires Valid() && Fits(c, |layers|)
      modifies this`layers, this`voxels, this`symmetric, this`current
      ensures Valid()
      ensures Snapshot() == Revert(old(Snapshot()), c)
    {
      match c
      case SetVoxel(p, _, prev) =>
        if prev.Some? {
          SetVoxel(p, prev.value);
        } else {
          DeleteVoxel(p);
        }
      case DeleteVoxel(p, v) => SetVoxel(p, v);
      case SetSymmetric(_, oldValue) => symmetric := oldValue;
      case SelectLayer(_, oldLayer) => current := oldLayer;
    }

    /** `execute_command`: run the command, push it for undo, and drop everything that was undone. */
    method ExecuteCommand(c: Command)
      requires Valid() && Fits(c, |layers|)
      modifies this`layers, this`voxels, this`symmetric, this`current, this`undoStack, this`redoStack
      ensures Valid()
      ensures (Snapshot(), Log()) == Execute(old(Snapshot()), old(Log()), c)
    {
      Forward(c);
      undoStack := undoStack + [c];
      redoStack := [];
    }

    /** `undo` */
    method Undo()
      requires Valid()
      modifies this`layers, this`voxels, this`symmetric, this`current, this`undoStack, this`redoStack
      ensures Valid()
      ensures (Snapshot(), Log()) == History.Undo(old(Snapshot()), old(Log()))
    {
      if undoStack != [] {
        var c := undoStack[|undoStack| - 1];
        undoStack := undoStack[..|undoStack| - 1];
        Backward(c);
        redoStack := redoStack + [c];
      }
    }

    /** `redo` */
    method Redo()
      requires Valid()
      modifies this`layers, this`voxels, this`symmetric, this`current, this`undoStack, this`redoStack
      ensures Valid()
      ensures (Snapshot(), Log()) == History.Redo(old(Snapshot()), old(Log()))
    {
      if redoStack != [] {
        var c := redoStack[|redoStack| - 1];
        redoStack := redoStack[..|redoStack| - 1];
        Forward(c);
        undoStack := undoStack + [c];
      }
    }

    /** `set_symmetric`: the flag changes and the change is recorded with the old value for undo. */
    method SetSymmetric(value: bool)
      requires Valid()
      modifies this`layers, this`voxels, this`symmetric, this`current, this`undoStack, this`redoStack
      ensures Valid()
      ensures symmetric == value
      ensures (Snapshot(), Log()) == Execute(old(Snapshot()), old(Log()), Command.SetSymmetric(value, old(symmetric)))
    {
      var oldValue := symmetric;
      symmetric := value;
      ExecuteCommand(Command.SetSymmetric(value, oldValue));
    }

    /** `select_tool` */
    method SelectTool(t: Tool)
      modifies this`tool
      ensures tool == t
    {
      tool := t;
    }

    /** `mouseover_layer` */
    method MouseoverLayer(n: int)
      modifies this`highlight
      ensures highlight == n
    {
      highlight := n;
    }

    /**
     * `select_layer`: -1 (nothing selected in the layer list) changes nothing here; any other
     * index is recorded as a command with the old index for undo.
     */
    method SelectLayer(n: int)
      requires Valid()
      requires n == -1 || 0 <= n < |layers|
      modifies this`layers, this`voxels, this`symmetric, this`current, this`undoStack, this`redoStack
      ensures Valid()
      ensures n == -1 ==> Snapshot() == old(Snapshot()) && Log() == old(Log())
      ensures n != -1 ==> current == n
      ensures n != -1 ==> (Snapshot(), Log()) == Execute(old(Snapshot()), old(Log()), Command.SelectLayer(n, old(current)))
    {
      if n != -1 {
        var oldLayer := current;
        ExecuteCommand(Command.SelectLayer(n, oldLayer));
      }
    }

    /** The loop of `on_save`: layer type `n` receives active layer `n`. */
    static method SaveLayers(lts: seq<LayerType>, layers: seq<Layer>) returns (saved: seq<LayerType>)
      requires |lts| == |layers|
      ensures saved == SaveAll(lts, layers)
    {
      saved := lts;
      var n := 0;
      while n != |layers|
        invariant 0 <= n <= |layers|
        invariant |saved| == |layers|
        invariant forall i :: 0 <= i < n ==> saved[i] == SaveLayer(lts[i], layers[i])
        invariant forall i :: n <= i < |saved| ==> saved[i] == lts[i]
      {
        var lt := saved[n];
        lt := lt.(variations := lt.variations[layers[n].name := layers[n]]);
        lt := lt.(lastEdited := layers[n].name);
        saved := saved[n := lt];
        n := n + 1;
      }
      SaveAllAt(lts, layers);
    }

    /**
     * `on_save`: without a file name nothing is written; otherwise each active layer is
     * stored into its layer type as the last edited variation and the model is serialised
     * (what the written document reads back as is `SaveRoundTrip`).
     */
    method OnSave() returns (doc: Option<Variant>)
      requires Valid()
      modifies this`model
      ensures Valid()
      ensures fname == "" ==> doc == None && model == old(model)
      ensures fname != "" ==> model == Model(SaveAll(old(model).layerTypes, layers)) && doc == Some(WriteModel(model))
    {
      if fname == "" {
        return None;
      }
      model := SaveModel(model, layers);
      doc := Some(WriteModel(model));
    }

    /** The model `on_save` stores: each active layer saved into its layer type. */
    static method SaveModel(m: Model, layers: seq<Layer>) returns (saved: Model)
      requires |m.layerTypes| == |layers| && WellFormedModel(m)
      requires forall i :: 0 <= i < |layers| ==> UntaggedStore(layers[i].store)
      ensures saved == Model(SaveAll(m.layerTypes, layers)) && WellFormedModel(saved)
    {
      var lts := SaveLayers(m.layerTypes, layers);
      SaveAllWellFormed(m.layerTypes, layers);
      saved := Model(lts);
    }
  }
}

=== FILE: geometry.dfy ===
/** Voxel addresses: integer triples, their axes, and the x-mirror used by symmetric edits. */
module Geometry {

  /** One unit cube of the grid (the source's `boost::array<int, 3>`). */
  datatype Pos = Pos(x: int, y: int, z: int)

  /** An axis index: 0 = x, 1 = y, 2 = z. */
  type Axis = n: int | 0 <= n < 3

  /** `p[n]` */
  function Coord(p: Pos, n: Axis): int
  {
    if n == 0 then p.x else if n == 1 then p.y else p.z
  }

  /** `p` with coordinate `n` replaced by `v` (the source's `p[n] = v`). */
  function WithCoord(p: Pos, n: Axis, v: int): (r: Pos)
    ensures Coord(r, n) == v
    ensures forall m: Axis :: m != n ==> Coord(r, m) == Coord(p, m)
  {
    if n == 0 then p.(x := v) else if n == 1 then p.(y := v) else p.(z := v)
  }

  /** Component-wise sum, as `cursor[n] += vector_[n]` over all three axes. */
  function Add(p: Pos, d: Pos): Pos
  {
    Pos(p.x + d.x, p.y + d.y, p.z + d.z)
  }

  /** Two positions are equal exactly when all three coordinates are. */
  lemma CoordsDetermine(p: Pos, q: Pos)
    requires forall n: Axis :: Coord(p, n) == Coord(q, n)
    ensures p == q
  {
    assert Coord(p, 0) == Coord(q, 0);
    assert Coord(p, 1) == Coord(q, 1);
    assert Coord(p, 2) == Coord(q, 2);
  }

  /** The cell that symmetric mode edits alongside `p`: `opposite_pos[0] = -1*pos[0] - 1`. */
  function Mirror(p: Pos): (r: Pos)
    ensures r.y == p.y && r.z == p.z
    ensures r.x + p.x == -1
  {
    p.(x := -1 * p.x - 1)
  }

  /** Mirroring twice gives back the original cell. */
  lemma MirrorInvolution(p: Pos)
    ensures Mirror(Mirror(p)) == p
  {
  }

  /** No cell is its own mirror image: the mirror plane lies between x = -1 and x = 0. */
  lemma MirrorNoFixedPoint(p: Pos)
    ensures Mirror(p) != p
  {
  }

  /** `q` agrees with `p` on both axes other than `f`. */
  predicate AgreeOff(q: Pos, p: Pos, f: Axis)
  {
    forall n: Axis :: n != f ==> Coord(q, n) == Coord(p, n)
  }

  /** The quantity maximised by the selection scan: `flip*p[facing]`, `flip = reverse ? -1 : 1`. */
  function Depth(p: Pos, f: Axis, reverse: bool): int
  {
    (if reverse then -1 else 1) * Coord(p, f)
  }

  /** Two cells that agree off axis `f` and have the same depth along it are the same cell. */
  lemma SameRayAndDepth(p: Pos, q: Pos, f: Axis, reverse: bool)
    requires AgreeOff(p, q, f)
    requires Depth(p, f, reverse) == Depth(q, f, reverse)
    ensures p == q
  {
    assert Coord(p, f) == Coord(q, f);
    forall n: Axis ensures Coord(p, n) == Coord(q, n) {
      if n != f {
        assert Coord(p, n) == Coord(q, n);
      }
    }
    CoordsDetermine(p, q);
  }
}

=== FILE: history.dfy ===
/**
 * The edit history: the four kinds of recorded command, what running a command forwards
 * (`redo`) and backwards (`undo`) does to the editing session, and the two command stacks.
 */
module History {
  import opened Options
  import opened Geometry
  import opened Voxels

  /**
   * A recorded edit. The source keeps a pair of closures; each pair captures exactly the
   * values held here.
   */
  datatype Command =
    | SetVoxel(pos: Pos, voxel: Voxel, previous: Option<Voxel>)  // pencil_voxel
    | DeleteVoxel(pos: Pos, removed: Voxel)                       // delete_voxel
    | SetSymmetric(value: bool, oldValue: bool)                   // set_symmetric
    | SelectLayer(layer: int, oldLayer: int)                      // select_layer

  /** The part of the editor that commands read and write: `layers_`, `current_layer_`, `symmetric_`. */
  datatype Session = Session(layers: seq<Layer>, current: int, symmetric: bool)

  /** `current_layer_` names an active layer whenever there is one. */
  predicate SessionOk(s: Session)
  {
    if s.layers == [] then s.current == 0 else 0 <= s.current < |s.layers|
  }

  /** A command that can be replayed against a session with `n` active layers. */
  predicate Fits(c: Command, n: nat)
  {
    match c
    case SetVoxel(_, v, prev) => n > 0 && v.nlayer == Untagged && (prev.Some? ==> prev.value.nlayer == Untagged)
    case DeleteVoxel(_, v) => n > 0 && v.nlayer == Untagged
    case SetSymmetric(_, _) => true
    case SelectLayer(l, ol) => 0 <= l < n && 0 <= ol < n
  }

  predicate AllFit(cs: seq<Command>, n: nat)
  {
    forall i :: 0 <= i < |cs| ==> Fits(cs[i], n)
  }

  /** `layer().map` */
  function Store(s: Session): map<Pos, Voxel>
    requires 0 <= s.current < |s.layers|
  {
    s.layers[s.current].store
  }

  /** The current layer with its map replaced; no other layer and no flag changes. */
  function WithStore(s: Session, store: map<Pos, Voxel>): (r: Session)
    requires 0 <= s.current < |s.layers|
    ensures |r.layers| == |s.layers| && r.current == s.current && r.symmetric == s.symmetric
    ensures r.layers[s.current] == Layer(s.layers[s.current].name, store)
    ensures forall i :: 0 <= i < |s.layers| && i != s.current ==> r.layers[i] == s.layers[i]
  {
    s.(layers := s.layers[s.current := s.layers[s.current].(store := store)])
  }

  /** `voxel_editor::set_voxel`, with `symmetric_` read at the time of the call. */
  function SetVoxelEffect(s: Session, p: Pos, v: Voxel): Session
    requires 0 <= s.current < |s.layers|
  {
    WithStore(s, Place(Store(s), p, v, s.symmetric))
  }

  /** `voxel_editor::delete_voxel`, with `symmetric_` read at the time of the call. */
  function DeleteVoxelEffect(s: Session, p: Pos): Session
    requires 0 <= s.current < |s.layers|
  {
    WithStore(s, Erase(Store(s), p, s.symmetric))
  }

  /** Running a command forwards (its `redo` closure). */
  function Apply(s: Session, c: Command): (r: Session)
    requires SessionOk(s) && Fits(c, |s.layers|)
    ensures SessionOk(r) && |r.layers| == |s.layers|
  {
    match c
    case SetVoxel(p, v, _) => SetVoxelEffect(s, p, v)
    case DeleteVoxel(p, _) => DeleteVoxelEffect(s, p)
    case SetSymmetric(value, _) => s.(symmetric := value)
    case SelectLayer(l, _) => s.(current := l)
  }

  /** Running a command backwards (its `undo` closure). */
  function Revert(s: Session, c: Command): (r: Session)
    requires SessionOk(s) && Fits(c, |s.layers|)
    ensures SessionOk(r) && |r.layers| == |s.layers|
  {
    match c
    case SetVoxel(p, _, prev) =>
      if prev.Some? then SetVoxelEffect(s, p, prev.value) else DeleteVoxelEffect(s, p)
    case DeleteVoxel(p, v) => SetVoxelEffect(s, p, v)
    case SetSymmetric(_, oldValue) => s.(symmetric := oldValue)
    case SelectLayer(_, oldLayer) => s.(current := oldLayer)
  }

  /** `undo_` and `redo_`; the most recent command is last. */
  datatype Stacks = Stacks(undo: seq<Command>, redo: seq<Command>)

  predicate StacksFit(h: Stacks, n: nat)
  {
    AllFit(h.undo, n) && AllFit(h.redo, n)
  }

  /** `execute_command`: run the command forwards, push it for undo, forget everything undone. */
  function Execute(s: Session, h: Stacks, c: Command): (r: (Session, Stacks))
    requires SessionOk(s) && Fits(c, |s.layers|) && StacksFit(h, |s.layers|)
    ensures SessionOk(r.0) && |r.0.layers| == |s.layers| && StacksFit(r.1, |s.layers|)
    ensures r.1.undo == h.undo + [c] && r.1.redo == []
  {
    (Apply(s, c), Stacks(h.undo + [c], []))
  }

  /** `undo`: nothing when there is nothing to undo; otherwise the last command moves to the redo stack and runs backwards. */
  function Undo(s: Session, h: Stacks): (r: (Session, Stacks))
    requires SessionOk(s) && StacksFit(h, |s.layers|)
    ensures SessionOk(r.0) && |r.0.layers| == |s.layers| && StacksFit(r.1, |s.layers|)
    ensures h.undo == [] ==> r == (s, h)
    ensures h.undo != [] ==> r.1.undo + [h.undo[|h.undo| - 1]] == h.undo && r.1.redo == h.redo + [h.undo[|h.undo| - 1]]
    ensures |r.1.undo| + |r.1.redo| == |h.undo| + |h.redo|
  {
    if h.undo == [] then (s, h)
    else
      var n := |h.undo| - 1;
      var c := h.undo[n];
      assert h.undo[..n] + [c] == h.undo;
      (Revert(s, c), Stacks(h.undo[..n], h.redo + [c]))
  }

  /** `redo`: nothing when there is nothing to redo; otherwise the last undone command moves back and runs forwards. */
  function Redo(s: Session, h: Stacks): (r: (Session, Stacks))
    requires SessionOk(s) && StacksFit(h, |s.layers|)
    ensures SessionOk(r.0) && |r.0.layers| == |s.layers| && StacksFit(r.1, |s.layers|)
    ensures h.redo == [] ==> r == (s, h)
    ensures h.redo != [] ==> r.1.redo + [h.redo[|h.redo| - 1]] == h.redo && r.1.undo == h.undo + [h.redo[|h.redo| - 1]]
    ensures |r.1.undo| + |r.1.redo| == |h.undo| + |h.redo|
  {
    if h.redo == [] then (s, h)
    else
      var n := |h.redo| - 1;
      var c := h.redo[n];
      assert h.redo[..n] + [c] == h.redo;
      (Apply(s, c), Stacks(h.undo + [c], h.redo[..n]))
  }

  /** Undo followed by redo puts both stacks back as they were. */
  lemma UndoThenRedo(s: Session, h: Stacks)
    requires SessionOk(s) && StacksFit(h, |s.layers|)
    requires h.undo != []
    ensures var (s1, h1) := Undo(s, h); Redo(s1, h1).1 == h
  {
    var (s1, h1) := Undo(s, h);
    var c := h.undo[|h.undo| - 1];
    assert h1.redo[..|h1.redo| - 1] == h.redo;
  }

  /** Redo followed by undo puts both stacks back as they were. */
  lemma RedoThenUndo(s: Session, h: Stacks)
    requires SessionOk(s) && StacksFit(h, |s.layers|)
    requires h.redo != []
    ensures var (s1, h1) := Redo(s, h); Undo(s1, h1).1 == h
  {
    var (s1, h1) := Redo(s, h);
    assert h1.undo[..|h1.undo| - 1] == h.undo;
  }

  /** `pencil_voxel` records the voxel it replaces, or its absence. */
  function Previous(m: map<Pos, Voxel>, p: Pos): Option<Voxel>
  {
    if p in m then Some(m[p]) else None
  }

  /** The command's remembered "old" values are those of the session it was created in. */
  predicate RecordedAt(s: Session, c: Command)
    requires SessionOk(s) && Fits(c, |s.layers|)
  {
    match c
    case SetVoxel(p, _, prev) => prev == Previous(Store(s), p)
    case DeleteVoxel(p, v) => p in Store(s) && Store(s)[p] == v
    case SetSymmetric(_, oldValue) => oldValue == s.symmetric
    case SelectLayer(_, oldLayer) => oldLayer == s.current
  }

  /**
   * The command `pencil_voxel` records at the cursor `p`: a fresh voxel of colour `color`,
   * remembering what the current layer held there.
   */
  function PencilCommand(s: Session, p: Pos, color: Color): (c: Command)
    requires SessionOk(s) && s.layers != []
    requires UntaggedStore(Store(s))
    ensures Fits(c, |s.layers|) && RecordedAt(s, c)
    ensures c.SetVoxel? && c.pos == p && c.voxel == Voxel(color, Untagged)
  {
    SetVoxel(p, Voxel(color, Untagged), Previous(Store(s), p))
  }

  /**
   * The command `delete_voxel` records at the cursor `p`: none when the current layer has no
   * voxel there, otherwise one remembering the removed voxel.
   */
  function DeleteCommand(s: Session, p: Pos): (c: Option<Command>)
    requires SessionOk(s) && s.layers != []
    requires UntaggedStore(Store(s))
    ensures c.None? <==> p !in Store(s)
    ensures c.Some? ==> Fits(c.value, |s.layers|) && RecordedAt(s, c.value) && c.value.DeleteVoxel? && c.value.pos == p
  {
    if p in Store(s) then Some(DeleteVoxel(p, Store(s)[p])) else None
  }

  /**
   * When undo puts a session back exactly: always for the flag and layer commands; for voxel
   * commands when symmetric mode is off, or when a pencil stroke under symmetric mode landed
   * on two empty cells.
   */
  predicate CleanlyReversible(s: Session, c: Command)
    requires SessionOk(s) && Fits(c, |s.layers|)
  {
    match c
    case SetVoxel(p, _, prev) => !s.symmetric || (prev.None? && Mirror(p) !in Store(s))
    case DeleteVoxel(_, _) => !s.symmetric
    case _ => true
  }

  /**
   * Undo restores the session a command was recorded in: with symmetric mode off a pencil
   * stroke's undo brings back the old voxel or erases the cell it filled, and under symmetric
   * mode a stroke on two empty cells is removed in both halves.
   */
  lemma UndoRestores(s: Session, c: Command)
    requires SessionOk(s) && Fits(c, |s.layers|)
    requires RecordedAt(s, c) && CleanlyReversible(s, c)
    ensures Revert(Apply(s, c), c) == s
  {
    match c
    case SetVoxel(p, v, prev) =>
      var m := Store(s);
      var after := Place(m, p, v, s.symmetric);
      var back := Store(Revert(Apply(s, c), c));
      assert back == m by {
        if prev.Some? {
          assert back == Place(after, p, prev.value, s.symmetric);
          assert back.Keys == m.Keys;
        } else {
          assert back == Erase(after, p, s.symmetric);
          assert back.Keys == m.Keys;
        }
      }
      assert s.layers[s.current].(store := m) == s.layers[s.current];
      assert Revert(Apply(s, c), c).layers == s.layers;
    case DeleteVoxel(p, v) =>
      var m := Store(s);
      var back := Store(Revert(Apply(s, c), c));
      assert back == Place(Erase(m, p, false), p, v, false);
      assert back.Keys == m.Keys;
      assert back == m;
      assert s.layers[s.current].(store := m) == s.layers[s.current];
      assert Revert(Apply(s, c), c).layers == s.layers;
    case SetSymmetric(_, _) =>
    case SelectLayer(_, _) =>
  }

  /**
   * A pencil stroke remembers the old voxel of the cursor cell only, and its undo on a cell
   * that was empty erases it with the symmetric erase: under symmetric mode the mirror cell
   * goes as well, whatever it held before the stroke, so the session is not restored when the
   * mirror cell was occupied.
   */
  lemma SymmetricUndoLosesMirror(s: Session, p: Pos, v: Voxel)
    requires SessionOk(s) && s.layers != [] && s.symmetric
    requires p !in Store(s) && v.nlayer == Untagged
    ensures var c := SetVoxel(p, v, Previous(Store(s), p));
            && Fits(c, |s.layers|) && RecordedAt(s, c)
            && Store(Revert(Apply(s, c), c)) == Store(s) - {Mirror(p)}
            && (Mirror(p) in Store(s) ==> Revert(Apply(s, c), c) != s)
  {
    var c := SetVoxel(p, v, Previous(Store(s), p));
    var m := Store(s);
    var back := Store(Revert(Apply(s, c), c));
    MirrorNoFixedPoint(p);
    assert back == Erase(Place(m, p, v, true), p, true);
    assert back.Keys == (m - {Mirror(p)}).Keys;
    if Mirror(p) in m {
      assert Mirror(p) !in Store(Revert(Apply(s, c), c));
    }
  }

  /**
   * After `execute(A); execute(B); undo(); execute(C)` there is nothing to redo (C's execute
   * dropped B), the undo stack holds A then C, and when B's undo restored the session the
   * layers match A then C run from the start.
   */
  lemma LinearHistory(s: Session, h: Stacks, a: Command, b: Command, c: Command)
    requires SessionOk(s) && StacksFit(h, |s.layers|)
    requires Fits(a, |s.layers|) && Fits(b, |s.layers|) && Fits(c, |s.layers|)
    requires RecordedAt(Apply(s, a), b) && CleanlyReversible(Apply(s, a), b)
    ensures var (s1, h1) := Execute(s, h, a);
            var (s2, h2) := Execute(s1, h1, b);
            var (s3, h3) := Undo(s2, h2);
            var (s4, h4) := Execute(s3, h3, c);
            && h4.redo == []
            && h4.undo == h.undo + [a, c]
            && Redo(s4, h4) == (s4, h4)
            && s4 == Apply(Apply(s, a), c)
  {
    var (s1, h1) := Execute(s, h, a);
    var (s2, h2) := Execute(s1, h1, b);
    var (s3, h3) := Undo(s2, h2);
    UndoRestores(s1, b);
    assert h3.undo == h.undo + [a];
  }

  /** `pencil_voxel` writes the voxel twice (once through the command, once directly); the second write changes nothing. */
  lemma SetVoxelTwice(s: Session, p: Pos, v: Voxel)
    requires 0 <= s.current < |s.layers|
    ensures SetVoxelEffect(SetVoxelEffect(s, p, v), p, v) == SetVoxelEffect(s, p, v)
  {
    PlaceIdempotent(Store(s), p, v, s.symmetric);
  }
}

=== FILE: options.dfy ===
/** Optional values and fallible results, for the source's "maybe absent" values and fatal load errors. */
module Options {

  datatype Option<+T> = None | Some(value: T)

  /** A load that either produced a value or hit one of the source's fatal assertions. */
  datatype Result<+T> = Ok(value: T) | Err(reason: string) {

    predicate IsFailure()
    {
      Err?
    }

    function PropagateFailure<U>(): Result<U>
      requires Err?
    {
      Err(reason)
    }

    function Extract(): T
      requires Ok?
    {
      value
    }
  }
}

=== FILE: ordering.dfy ===
/**
 * The key orders of the source's `std::map`s and iteration in that order.
 * A `std::map<std::string, _>` iterates its keys in lexicographic `std::string` order and a
 * `std::map<VoxelPos, _>` in lexicographic `boost::array` order; `Sorted` gives that iteration
 * sequence for a finite key set.
 */
module Ordering {
  import opened Geometry

  /** Lexicographic order on strings, character by character (`std::string::operator<=`). */
  predicate StrLe(a: string, b: string)
    decreases |a|
  {
    a == [] || (b != [] && (a[0] < b[0] || (a[0] == b[0] && StrLe(a[1..], b[1..]))))
  }

  /** Lexicographic order on positions, x first (`boost::array<int, 3>::operator<=`). */
  predicate PosLe(p: Pos, q: Pos)
  {
    p.x < q.x || (p.x == q.x && (p.y < q.y || (p.y == q.y && p.z <= q.z)))
  }

  ghost predicate TotalOrder<T(!new)>(le: (T, T) -> bool)
  {
    && (forall x :: le(x, x))
    && (forall x, y :: le(x, y) && le(y, x) ==> x == y)
    && (forall x, y, z :: le(x, y) && le(y, z) ==> le(x, z))
    && (forall x, y :: le(x, y) || le(y, x))
  }

  lemma {:induction false} StrLeReflexive(a: string)
    ensures StrLe(a, a)
    decreases |a|
  {
    if a != [] {
      StrLeReflexive(a[1..]);
    }
  }

  lemma {:induction false} StrLeAntisymmetric(a: string, b: string)
    requires StrLe(a, b) && StrLe(b, a)
    ensures a == b
    decreases |a|
  {
    if a != [] {
      assert b != [] && a[0] == b[0];
      StrLeAntisymmetric(a[1..], b[1..]);
      assert a == [a[0]] + a[1..] && b == [b[0]] + b[1..];
    }
  }

  lemma {:induction false} StrLeTransitive(a: string, b: string, c: string)
    requires StrLe(a, b) && StrLe(b, c)
    ensures StrLe(a, c)
    decreases |a|
  {
    if a != [] && a[0] == b[0] && b[0] == c[0] {
      StrLeTransitive(a[1..], b[1..], c[1..]);
    }
  }

  lemma {:induction false} StrLeTotal(a: string, b: string)
    ensures StrLe(a, b) || StrLe(b, a)
    decreases |a|
  {
    if a != [] && b != [] && a[0] == b[0] {
      StrLeTotal(a[1..], b[1..]);
    }
  }

  /** The string order is a total order, so string-keyed maps have one iteration sequence. */
  lemma StrLeTotalOrder()
    ensures TotalOrder(StrLe)
  {
    forall a ensures StrLe(a, a) { StrLeReflexive(a); }
    forall a, b | StrLe(a, b) && StrLe(b, a) ensures a == b { StrLeAntisymmetric(a, b); }
    forall a, b, c | StrLe(a, b) && StrLe(b, c) ensures StrLe(a, c) { StrLeTransitive(a, b, c); }
    forall a, b ensures StrLe(a, b) || StrLe(b, a) { StrLeTotal(a, b); }
  }

  /** The position order is a total order. */
  lemma PosLeTotalOrder()
    ensures TotalOrder(PosLe)
  {
  }

  /** `m` is an element of `s` below every element of `s`. */
  predicate IsLeast<T>(m: T, s: set<T>, le: (T, T) -> bool)
  {
    m in s && forall x :: x in s ==> le(m, x)
  }

  /** Every non-empty finite set has a least element under a total order. */
  lemma {:induction false} MinimumExists<T(!new)>(s: set<T>, le: (T, T) -> bool)
    requires s != {} && TotalOrder(le)
    ensures exists m :: IsLeast(m, s, le)
    decreases s
  {
    var y :| y in s;
    if s == {y} {
      assert le(y, y);
      assert IsLeast(y, s, le);
    } else {
      var rest := s - {y};
      MinimumExists(rest, le);
      var m :| IsLeast(m, rest, le);
      if le(y, m) {
        forall x | x in s ensures le(y, x) {
          if x != y {
            assert le(m, x);
          }
        }
        assert IsLeast(y, s, le);
      } else {
        assert le(m, y);
        forall x | x in s ensures le(m, x) {
          if x != y {
            assert x in rest;
          }
        }
        assert IsLeast(m, s, le);
      }
    }
  }

  /** The first key of a `std::map` with key set `s` (`begin()`). */
  function Minimum<T(!new)>(s: set<T>, le: (T, T) -> bool): (m: T)
    requires s != {} && TotalOrder(le)
    ensures m in s && forall x :: x in s ==> le(m, x)
  {
    MinimumExists(s, le);
    var m :| IsLeast(m, s, le);
    m
  }

  /** Each element strictly below every later one. */
  ghost predicate StrictlySorted<T>(r: seq<T>, le: (T, T) -> bool)
  {
    forall i, j :: 0 <= i < j < |r| ==> le(r[i], r[j]) && r[i] != r[j]
  }

  /** A strictly sorted sequence has no repeated element. */
  lemma SortedDistinct<T>(r: seq<T>, le: (T, T) -> bool)
    requires StrictlySorted(r, le)
    ensures forall i, j :: 0 <= i < j < |r| ==> r[i] != r[j]
  {
  }

  /** The iteration sequence of a `std::map` whose key set is `s`. */
  function Sorted<T(!new)>(s: set<T>, le: (T, T) -> bool): (r: seq<T>)
    requires TotalOrder(le)
    ensures |r| == |s|
    ensures forall x :: x in r <==> x in s
    ensures StrictlySorted(r, le)
    decreases s
  {
    if s == {} then []
    else
      var m := Minimum(s, le);
      var rest := Sorted(s - {m}, le);
      assert forall j :: 0 <= j < |rest| ==> le(m, rest[j]) && m != rest[j];
      PrependSorted(m, rest, le);
      [m] + rest
  }

  /** An element strictly below every element of a strictly sorted sequence can go in front of it. */
  lemma PrependSorted<T>(m: T, rest: seq<T>, le: (T, T) -> bool)
    requires StrictlySorted(rest, le)
    requires forall j :: 0 <= j < |rest| ==> le(m, rest[j]) && m != rest[j]
    ensures StrictlySorted([m] + rest, le)
  {
    var r := [m] + rest;
    forall i, j | 0 <= i < j < |r| ensures le(r[i], r[j]) && r[i] != r[j] {
      if i == 0 {
        assert r[j] == rest[j - 1];
      } else {
        assert r[i] == rest[i - 1] && r[j] == rest[j - 1];
      }
    }
  }

  /** A strictly sorted sequence has as many elements as its set of elements. */
  lemma {:induction false} DistinctLength<T>(s: seq<T>, le: (T, T) -> bool)
    requires StrictlySorted(s, le)
    ensures |(set x | x in s)| == |s|
    decreases |s|
  {
    if s != [] {
      var rest := s[1..];
      assert StrictlySorted(rest, le) by {
        forall i, j | 0 <= i < j < |rest| ensures le(rest[i], rest[j]) && rest[i] != rest[j] {
          assert rest[i] == s[i + 1] && rest[j] == s[j + 1];
        }
      }
      DistinctLength(rest, le);
      assert (set x | x in s) == {s[0]} + (set x | x in rest);
      assert s[0] !in (set x | x in rest) by {
        forall j | 0 <= j < |rest| ensures rest[j] != s[0] {
          assert rest[j] == s[j + 1];
        }
      }
    }
  }

  /** Two strictly sorted sequences with the same elements are the same sequence. */
  lemma {:induction false} SortedUnique<T(!new)>(a: seq<T>, b: seq<T>, le: (T, T) -> bool)
    requires TotalOrder(le)
    requires StrictlySorted(a, le) && StrictlySorted(b, le)
    requires forall x :: x in a <==> x in b
    ensures a == b
    decreases |a|
  {
    if a == [] {
      DistinctLength(b, le);
      assert (set x | x in b) == {};
    } else {
      assert a[0] in b;
      assert b != [];
      assert b[0] in a;
      assert le(a[0], b[0]) by {
        var k :| 0 <= k < |a| && a[k] == b[0];
        assert k == 0 || le(a[0], a[k]);
      }
      assert le(b[0], a[0]) by {
        var k :| 0 <= k < |b| && b[k] == a[0];
        assert k == 0 || le(b[0], b[k]);
      }
      assert a[0] == b[0];
      forall x ensures x in a[1..] <==> x in b[1..] {
        if x in a[1..] {
          var k :| 1 <= k < |a| && a[k] == x;
          assert x != a[0];
          assert x in b;
          var j :| 0 <= j < |b| && b[j] == x;
          assert j != 0;
        }
        if x in b[1..] {
          var k :| 1 <= k < |b| && b[k] == x;
          assert x != b[0];
          assert x in a;
          var j :| 0 <= j < |a| && a[j] == x;
          assert j != 0;
        }
      }
      SortedUnique(a[1..], b[1..], le);
      assert a == [a[0]] + a[1..] && b == [b[0]] + b[1..];
    }
  }

  /** Iterating a map built from a strictly sorted key list gives back that list. */
  lemma SortedOfSortedList<T(!new)>(r: seq<T>, le: (T, T) -> bool)
    requires TotalOrder(le)
    requires StrictlySorted(r, le)
    ensures Sorted((set x | x in r), le) == r
  {
    SortedUnique(Sorted((set x | x in r), le), r, le);
  }
}

=== FILE: perspective.dfy ===
/**
 * The axis-aligned 2D views: how a view maps between the screen and the voxel grid, its zoom,
 * and the mouse and keyboard handling that moves the cursor and paints or erases voxels.
 */
module Perspective {
  import opened Options
  import opened Geometry
  import opened Voxels
  import opened History
  import opened Editor

  /** `INT_MIN`: the "no mouse position" marker. */
  const IntMin := -0x8000_0000

  /** C++ integer division on a positive divisor: the quotient is rounded toward zero. */
  function TDiv(a: int, b: int): (q: int)
    requires b > 0
    ensures a >= 0 ==> 0 <= q && q * b <= a < q * b + b
    ensures a < 0 ==> q <= 0 && q * b - b < a <= q * b
  {
    if a >= 0 then
      DivBounds(a, b);
      a / b
    else
      DivBounds(-a, b);
      assert (-((-a) / b)) * b == -(((-a) / b) * b);
      -((-a) / b)
  }

  /** Euclidean division of a non-negative number: the quotient's multiple is at most one divisor below it. */
  lemma DivBounds(a: int, b: int)
    requires a >= 0 && b > 0
    ensures 0 <= a / b && (a / b) * b <= a < (a / b) * b + b
  {
    assert a == (a / b) * b + a % b;
  }

  /** The screen area of a widget: `x()`, `y()`, `width()`, `height()`. */
  datatype Rect = Rect(x: int, y: int, w: nat, h: nat)

  /** The first non-zero component of a view direction: the axis the view looks along. */
  function FirstNonzero(v: Pos): (f: Axis)
    requires v != Pos(0, 0, 0)
    ensures Coord(v, f) != 0
    ensures forall m: Axis :: m < f ==> Coord(v, m) == 0
  {
    if v.x != 0 then 0 else if v.y != 0 then 1 else 2
  }

  /** `invert_y_`: screen y grows downwards except in the view that looks along y. */
  function InvertY(facing: Axis): int
  {
    if facing == 1 then 1 else -1
  }

  /**
   * The two axes a view shows, in the order `{0, 2, 1}` visits them once the facing axis is
   * skipped: horizontal first, vertical second.
   */
  function ScreenAxes(facing: Axis): (r: (Axis, Axis))
    ensures r.0 != facing && r.1 != facing && r.0 != r.1
    ensures r.0 == 0 || (facing == 0 && r.0 == 2)
    ensures r.1 == 1 || (facing == 1 && r.1 == 2)
  {
    if facing == 0 then (2, 1) else if facing == 1 then (0, 2) else (0, 1)
  }

  /** The facing axis is among the first `n` entries of the visiting order `{0, 2, 1}`. */
  predicate Passed(facing: Axis, n: int)
  {
    (n >= 1 && facing == 0) || (n >= 2 && facing == 2) || (n >= 3 && facing == 1)
  }

  /** `normalize_pos`: the two visible coordinates of `p`, with the third slot 0. */
  function Normalize(p: Pos, facing: Axis): Pos
  {
    var (h, v) := ScreenAxes(facing);
    Pos(Coord(p, h), Coord(p, v), 0)
  }

  /** `denormalize_pos`: the cell of the view plane through the origin at screen cell `q`. */
  function Denormalize(q: Pos, facing: Axis): Pos
  {
    var (h, v) := ScreenAxes(facing);
    WithCoord(WithCoord(WithCoord(Pos(0, 0, 0), h, q.x), v, q.y), facing, 0)
  }

  /** Denormalizing a normalized cell gives back the cell projected onto the plane `p[facing] == 0`. */
  lemma DenormalizeNormalize(p: Pos, facing: Axis)
    ensures Denormalize(Normalize(p, facing), facing) == WithCoord(p, facing, 0)
  {
    var r := Denormalize(Normalize(p, facing), facing);
    var (h, v) := ScreenAxes(facing);
    forall n: Axis ensures Coord(r, n) == Coord(WithCoord(p, facing, 0), n) {
      if n != facing && n != h {
        assert n == v;
      }
    }
    CoordsDetermine(r, WithCoord(p, facing, 0));
  }

  /** Normalizing a denormalized screen cell gives back its two screen coordinates. */
  lemma NormalizeDenormalize(q: Pos, facing: Axis)
    ensures Normalize(Denormalize(q, facing), facing) == Pos(q.x, q.y, 0)
  {
  }

  /** Two cells on the same ray along the facing axis show at the same screen cell. */
  lemma NormalizeForgetsDepth(p: Pos, q: Pos, facing: Axis)
    requires AgreeOff(p, q, facing)
    ensures Normalize(p, facing) == Normalize(q, facing)
  {
    var (h, v) := ScreenAxes(facing);
    assert Coord(p, h) == Coord(q, h) && Coord(p, v) == Coord(q, v);
  }

  /**
   * `get_mouse_pos`: the screen cell under the mouse, counted from the centre of the view.
   * Left of the centre one cell width is subtracted before the division, below it one is added.
   */
  function MousePos(mx: int, my: int, area: Rect, width: int, invertY: int): Pos
    requires width > 0
  {
    var xpos := mx - (area.x + area.w / 2);
    var ypos := my - (area.y + area.h / 2);
    var xpos' := if xpos < 0 then xpos - width else xpos;
    var ypos' := if ypos > 0 then ypos + width else ypos;
    Pos(TDiv(xpos', width), TDiv(ypos', width) * invertY, 0)
  }

  /**
   * The column under the mouse is `dx / width` rounded down, except exactly on a cell border
   * left of the centre, where it is one less.
   */
  lemma MouseColumn(mx: int, my: int, area: Rect, width: int, invertY: int)
    requires width > 0
    ensures var dx := mx - (area.x + area.w / 2);
            MousePos(mx, my, area, width, invertY).x == if dx < 0 && dx % width == 0 then dx / width - 1 else dx / width
  {
    var dx := mx - (area.x + area.w / 2);
    ColumnOf(dx, width);
  }

  lemma ColumnOf(dx: int, width: int)
    requires width > 0
    ensures TDiv(if dx < 0 then dx - width else dx, width) == if dx < 0 && dx % width == 0 then dx / width - 1 else dx / width
  {
    if dx < 0 {
      var c := TDiv(dx - width, width);
      assert c * width < dx <= c * width + width;
      assert (c + 1) * width == c * width + width;
      if dx % width == 0 {
        FloorOfMultiple(dx, width);
        FloorUnique(dx, width, c + 1);
      } else {
        MultipleMod(c + 1, width);
        FloorUnique(dx, width, c);
      }
    }
  }

  /** With `width = 20`, the pixel 20 left of the centre is in column -2 and pixels -19 to -1 are in column -1, so column -1 is only 19 pixels wide. */
  lemma NarrowColumn()
    ensures MousePos(-20, 0, Rect(0, 0, 0, 0), 20, 1).x == -2
    ensures MousePos(-19, 0, Rect(0, 0, 0, 0), 20, 1).x == -1
    ensures MousePos(-1, 0, Rect(0, 0, 0, 0), 20, 1).x == -1
    ensures MousePos(0, 0, Rect(0, 0, 0, 0), 20, 1).x == 0
    ensures forall px :: -19 <= px <= -1 ==> MousePos(px, 0, Rect(0, 0, 0, 0), 20, 1).x == -1
  {
    MouseColumn(-20, 0, Rect(0, 0, 0, 0), 20, 1);
    MouseColumn(-19, 0, Rect(0, 0, 0, 0), 20, 1);
    MouseColumn(-1, 0, Rect(0, 0, 0, 0), 20, 1);
    forall px | -19 <= px <= -1 ensures MousePos(px, 0, Rect(0, 0, 0, 0), 20, 1).x == -1 {
      MouseColumn(px, 0, Rect(0, 0, 0, 0), 20, 1);
      FloorUnique(px, 20, -1);
    }
  }

  /**
   * The row under the mouse, before `invert_y_`, is `dy / width` rounded up, except exactly on
   * a cell border below the centre, where it is one more.
   */
  lemma MouseRow(mx: int, my: int, area: Rect, width: int, invertY: int)
    requires width > 0
    ensures var dy := my - (area.y + area.h / 2);
            var row := if dy > 0 && dy % width == 0 then dy / width + 1 else -((-dy) / width);
            MousePos(mx, my, area, width, invertY).y == row * invertY
  {
    var dy := my - (area.y + area.h / 2);
    RowOf(dy, width);
  }

  lemma RowOf(dy: int, width: int)
    requires width > 0
    ensures TDiv(if dy > 0 then dy + width else dy, width) == if dy > 0 && dy % width == 0 then dy / width + 1 else -((-dy) / width)
  {
    if dy > 0 {
      var t := TDiv(dy + width, width);
      assert t * width - width <= dy < t * width;
      assert (t - 1) * width == t * width - width;
      if dy % width == 0 {
        FloorOfMultiple(dy, width);
        FloorUnique(dy, width, t - 1);
      } else {
        MultipleMod(t - 1, width);
        assert (-t) * width == -(t * width);
        FloorUnique(-dy, width, -t);
      }
    }
  }

  /** `a / b` is the one `q` with `q * b <= a < q * b + b`. */
  lemma FloorUnique(a: int, b: int, q: int)
    requires b > 0
    requires q * b <= a < q * b + b
    ensures a / b == q
  {
    var k := a / b;
    assert a == k * b + a % b;
    if k < q {
      MulMonotone(k + 1, q, b);
    } else if q < k {
      MulMonotone(q + 1, k, b);
    }
  }

  /** On an exact multiple the division leaves no gap: `(a / b) * b == a` when `a % b == 0`. */
  lemma FloorOfMultiple(a: int, b: int)
    requires b > 0 && a % b == 0
    ensures (a / b) * b == a
  {
  }

  /** A multiple of `b` leaves no remainder. */
  lemma MultipleMod(k: int, b: int)
    requires b > 0
    ensures (k * b) % b == 0
  {
    FloorUnique(k * b, b, k);
  }

  lemma MulMonotone(x: int, y: int, b: int)
    requires x <= y && b > 0
    ensures x * b <= y * b
  {
    assert y * b - x * b == (y - x) * b;
  }

  /** The zoom levels: `voxel_width_` starts at 20 and is only ever doubled below 80 or halved above 5. */
  predicate ZoomLevel(w: int)
  {
    w == 5 || w == 10 || w == 20 || w == 40 || w == 80
  }

  /** `zoom_in` */
  function ZoomedIn(w: int): (r: int)
    ensures ZoomLevel(w) ==> ZoomLevel(r)
    ensures ZoomLevel(w) ==> (r > w <==> w < 80)
  {
    if w < 80 then w * 2 else w
  }

  /** `zoom_out` */
  function ZoomedOut(w: int): (r: int)
    ensures ZoomLevel(w) ==> ZoomLevel(r)
    ensures ZoomLevel(w) ==> (r < w <==> w > 5)
  {
    if w > 5 then w / 2 else w
  }

  /** Zooming in and back out returns to the same level, and so does zooming out and back in. */
  lemma ZoomRoundTrip(w: int)
    requires ZoomLevel(w)
    ensures w < 80 ==> ZoomedOut(ZoomedIn(w)) == w
    ensures w > 5 ==> ZoomedIn(ZoomedOut(w)) == w
  {
  }

  /** `-v`, as `flip` applies it to the three direction components. */
  function Negate(v: Pos): (r: Pos)
    ensures forall n: Axis :: Coord(r, n) == -Coord(v, n)
  {
    Pos(-v.x, -v.y, -v.z)
  }

  /**
   * Flipping a view keeps the axis it looks along and turns the direction it looks in: the
   * renderer re-created by `flip` faces the same axis, and `get_selected_voxel` picks from the
   * other end of each ray.
   */
  lemma FlipKeepsFacing(v: Pos)
    requires v != Pos(0, 0, 0)
    ensures Negate(v) != Pos(0, 0, 0)
    ensures FirstNonzero(Negate(v)) == FirstNonzero(v)
    ensures Coord(Negate(v), FirstNonzero(v)) < 0 <==> !(Coord(v, FirstNonzero(v)) < 0)
    ensures Negate(Negate(v)) == v
  {
  }

  /** The mouse buttons the views react to. */
  datatype Button = LeftButton | RightButton | OtherButton

  /**
   * Where `calculate_cursor` puts the cursor for the ray through `pos`: the cell
   * `get_selected_voxel` picks, moved one `step` (the view vector) further when the pencil-above
   * tool is in use and that cell holds a voxel.
   */
  ghost predicate IsCursorTarget(vox: map<Pos, Voxel>, pos: Pos, facing: Axis, reverse: bool, step: Pos, above: bool, c: Pos)
  {
    exists sel :: IsSelection(vox, pos, facing, reverse, sel) && c == (if above && sel in vox then Add(sel, step) else sel)
  }

  /** The view vector points along its facing axis only, as for the three views the editor opens. */
  predicate AxisAligned(v: Pos, facing: Axis)
  {
    Coord(v, facing) != 0 && forall m: Axis :: m != facing ==> Coord(v, m) == 0
  }

  /**
   * With the pencil tool the cursor stays on the ray under the mouse, so it shows at the mouse
   * cell; this is what makes the screen cell a sound key for the cells drawn during a drag.
   */
  lemma PencilTargetUnderMouse(vox: map<Pos, Voxel>, q: Pos, facing: Axis, reverse: bool, step: Pos, c: Pos)
    requires q.z == 0
    requires IsCursorTarget(vox, Denormalize(q, facing), facing, reverse, step, false, c)
    ensures Normalize(c, facing) == q
  {
    var sel :| IsSelection(vox, Denormalize(q, facing), facing, reverse, sel) && c == sel;
    NormalizeForgetsDepth(c, Denormalize(q, facing), facing);
    NormalizeDenormalize(q, facing);
  }

  /**
   * With the pencil-above tool and an axis-aligned view, when the ray under the mouse meets a
   * voxel the cursor lands on the empty cell in front of the visible voxel, on the same ray.
   */
  lemma AboveTargetIsEmpty(vox: map<Pos, Voxel>, pos: Pos, facing: Axis, step: Pos, c: Pos)
    requires AxisAligned(step, facing)
    requires IsCursorTarget(vox, pos, facing, Coord(step, facing) < 0, step, true, c)
    requires exists q :: q in vox && AgreeOff(q, pos, facing)
    ensures AgreeOff(c, pos, facing)
    ensures c !in vox
  {
    var reverse := Coord(step, facing) < 0;
    var sel :| IsSelection(vox, pos, facing, reverse, sel) && c == (if sel in vox then Add(sel, step) else sel);
    assert sel in vox;
    assert c == Add(sel, step);
    forall n: Axis | n != facing ensures Coord(c, n) == Coord(pos, n) {
      assert Coord(step, n) == 0;
      assert Coord(c, n) == Coord(sel, n) + Coord(step, n);
    }
    assert Coord(c, facing) == Coord(sel, facing) + Coord(step, facing);
    assert Depth(c, facing, reverse) > Depth(sel, facing, reverse);
  }

  /**
   * The mouse wheel moves the cursor one view step along the facing axis: away from the viewer
   * (lower `Depth`) when scrolled up, towards the viewer otherwise, staying on the same ray.
   */
  function Scrolled(c: Pos, facing: Axis, step: Pos, up: bool): (r: Pos)
    ensures AgreeOff(r, c, facing)
    ensures var d := if Coord(step, facing) < 0 then -Coord(step, facing) else Coord(step, facing);
            Depth(r, facing, Coord(step, facing) < 0) == Depth(c, facing, Coord(step, facing) < 0) + (if up then -d else d)
  {
    WithCoord(c, facing, if up then Coord(c, facing) - Coord(step, facing) else Coord(c, facing) + Coord(step, facing))
  }

  /** Scrolling one notch up and one notch down, in either order, puts the cursor back. */
  lemma ScrollRoundTrip(c: Pos, facing: Axis, step: Pos, up: bool)
    ensures Scrolled(Scrolled(c, facing, step, up), facing, step, !up) == c
  {
    var r := Scrolled(Scrolled(c, facing, step, up), facing, step, !up);
    CoordsDetermine(r, c);
  }

  /**
   * What a click or a drag step does at the cursor: the left button runs the command
   * `pencil_voxel` records, the right button the one `delete_voxel` records (none when the
   * current layer has no voxel there), and nothing happens without a cursor.
   */
  function Stroke(s: Session, h: Stacks, cursor: Option<Pos>, button: Button, color: Color): (r: (Session, Stacks))
    requires SessionOk(s) && StacksFit(h, |s.layers|)
    requires cursor.Some? && button != OtherButton ==> s.layers != [] && UntaggedStore(Store(s))
    ensures SessionOk(r.0) && |r.0.layers| == |s.layers| && StacksFit(r.1, |s.layers|)
    ensures r.0.current == s.current && r.0.symmetric == s.symmetric
    ensures forall i :: 0 <= i < |s.layers| && i != s.current ==> r.0.layers[i] == s.layers[i]
    ensures r == (s, h) || (r.1.redo == [] && |r.1.undo| == |h.undo| + 1 && r.1.undo[..|h.undo|] == h.undo)
    ensures cursor.Some? && button == LeftButton ==>
      cursor.value in Store(r.0) && Store(r.0)[cursor.value] == Voxel(color, Untagged)
    ensures cursor.Some? && button == RightButton ==> cursor.value !in Store(r.0)
    ensures cursor.None? || button == OtherButton ==> r == (s, h)
  {
    if cursor.None? then (s, h)
    else
      match button
      case LeftButton => Execute(s, h, PencilCommand(s, cursor.value, color))
      case RightButton =>
        (match DeleteCommand(s, cursor.value)
         case None => (s, h)
         case Some(c) => Execute(s, h, c))
      case OtherButton => (s, h)
  }

  /**
   * With symmetric mode off, undoing a click or drag step that changed the history gives back
   * the session it started from.
   */
  lemma StrokeUndone(s: Session, h: Stacks, cursor: Option<Pos>, button: Button, color: Color)
    requires SessionOk(s) && s.layers != [] && StacksFit(h, |s.layers|) && UntaggedStore(Store(s))
    requires !s.symmetric
    requires Stroke(s, h, cursor, button, color) != (s, h)
    ensures var (s1, h1) := Stroke(s, h, cursor, button, color);
            Undo(s1, h1) == (s, Stacks(h.undo, [h1.undo[|h.undo|]]))
  {
    var (s1, h1) := Stroke(s, h, cursor, button, color);
    var c := h1.undo[|h.undo|];
    assert h1.undo == h.undo + [c];
    assert h1.redo + [c] == [c];
    UndoRestores(s, c);
  }

  /** A step of one notch of the view vector, as `calculate_cursor` adds it under pencil-above. */
  method Advance(cursor: Pos, step: Pos) returns (r: Pos)
    ensures r == Add(cursor, step)
  {
    r := cursor;
    var n := 0;
    while n != 3
      invariant 0 <= n <= 3
      invariant forall m: Axis :: m < n ==> Coord(r, m) == Coord(cursor, m) + Coord(step, m)
      invariant forall m: Axis :: m >= n ==> Coord(r, m) == Coord(cursor, m)
    {
      r := WithCoord(r, n, Coord(r, n) + Coord(step, n));
      n := n + 1;
    }
    CoordsDetermine(r, Add(cursor, step));
  }

  /** `perspective_renderer`: one axis-aligned view of the editor. */
  class Renderer {
    const editor: VoxelEditor       // get_editor()
    const area: Rect                // the widget's x(), y(), width(), height()
    const vector: Pos               // vector_
    const facing: Axis              // facing_
    var voxelWidth: int             // voxel_width_
    var lastSelectX: int            // last_select_x_
    var lastSelectY: int            // last_select_y_
    const invertY: int              // invert_y_
    var drawingOn: bool             // drawing_on_
    var drawn: set<Pos>             // voxels_drawn_on_this_drag_
    var focus: bool                 // focus_

    ghost predicate Valid()
      reads this`voxelWidth
    {
      && vector != Pos(0, 0, 0)
      && facing == FirstNonzero(vector)
      && invertY == InvertY(facing)
      && ZoomLevel(voxelWidth)
    }

    /** Looking along `-vector[facing]` or `+vector[facing]`: the `reverse` flag of the selection scan. */
    function Reverse(): bool
    {
      Coord(vector, facing) < 0
    }

    /** `perspective_renderer(xdir, ydir, zdir)`: width 20, no mouse position, not drawing. */
    constructor (editor: VoxelEditor, area: Rect, xdir: int, ydir: int, zdir: int)
      requires Pos(xdir, ydir, zdir) != Pos(0, 0, 0)
      ensures Valid()
      ensures this.editor == editor && this.area == area && vector == Pos(xdir, ydir, zdir)
      ensures voxelWidth == 20 && lastSelectX == IntMin && lastSelectY == IntMin
      ensures !drawingOn && drawn == {} && !focus
    {
      this.editor := editor;
      this.area := area;
      var v := Pos(xdir, ydir, zdir);
      vector := v;
      voxelWidth := 20;
      lastSelectX := IntMin;
      lastSelectY := IntMin;
      drawingOn := false;
      drawn := {};
      focus := false;
      var f: Axis := 0;
      var n := 0;
      while n != 3
        invariant 0 <= n <= 3
        invariant forall m: Axis :: m < n ==> Coord(v, m) == 0
        decreases 3 - n
      {
        if Coord(v, n) != 0 {
          f := n;
          break;
        }
        n := n + 1;
      }
      facing := f;
      var inv := 1;
      if f != 1 {
        inv := inv * -1;
      }
      invertY := inv;
    }

    /** `zoom_in` */
    method ZoomIn()
      requires Valid()
      modifies this`voxelWidth
      ensures Valid()
      ensures voxelWidth == ZoomedIn(old(voxelWidth))
    {
      if voxelWidth < 80 {
        voxelWidth := voxelWidth * 2;
      }
    }

    /** `zoom_out` */
    method ZoomOut()
      requires Valid()
      modifies this`voxelWidth
      ensures Valid()
      ensures voxelWidth == ZoomedOut(old(voxelWidth))
    {
      if voxelWidth > 5 {
        voxelWidth := voxelWidth / 2;
      }
    }

    /** `normalize_pos`: the loop over `{0, 2, 1}` that copies the visible coordinates. */
    method NormalizePos(pos: Pos) returns (result: Pos)
      ensures result == Normalize(pos, facing)
    {
      var dimensions: seq<Axis> := [0, 2, 1];
      var (h, v) := ScreenAxes(facing);
      result := Pos(0, 0, 0);
      var out := 0;
      var n := 0;
      while n != 3
        invariant 0 <= n <= 3
        invariant out == n - (if Passed(facing, n) then 1 else 0)
        invariant result.z == 0
        invariant out >= 1 ==> result.x == Coord(pos, h)
        invariant out == 2 ==> result.y == Coord(pos, v)
      {
        if dimensions[n] != facing {
          result := WithCoord(result, out, Coord(pos, dimensions[n]));
          out := out + 1;
        }
        n := n + 1;
      }
    }

    /** `denormalize_pos`: the loop over `{0, 2, 1}` that places the screen coordinates. */
    method DenormalizePos(pos2d: Pos) returns (pos: Pos)
      ensures pos == Denormalize(pos2d, facing)
    {
      var dimensions: seq<Axis> := [0, 2, 1];
      var (h, v) := ScreenAxes(facing);
      pos := Pos(0, 0, 0);
      var p := 0;
      var n := 0;
      while n != 3
        invariant 0 <= n <= 3
        invariant p == n - (if Passed(facing, n) then 1 else 0)
        invariant Passed(facing, n) ==> Coord(pos, facing) == 0
        invariant p >= 1 ==> Coord(pos, h) == pos2d.x
        invariant p == 2 ==> Coord(pos, v) == pos2d.y
      {
        var d := dimensions[n];
        if d != facing {
          pos := WithCoord(pos, d, Coord(pos2d, p));
          p := p + 1;
        } else {
          pos := WithCoord(pos, d, 0);
        }
        n := n + 1;
      }
      var expected := Denormalize(pos2d, facing);
      forall m: Axis ensures Coord(pos, m) == Coord(expected, m) {
        if m != facing && m != h {
          assert m == v;
        }
      }
      CoordsDetermine(pos, expected);
    }

    /** The screen cell under the mouse (`get_mouse_pos`). */
    function MouseCell(mx: int, my: int): (q: Pos)
      requires Valid()
      reads this`voxelWidth
      ensures q.z == 0
    {
      MousePos(mx, my, area, voxelWidth, invertY)
    }

    /** The mouse lies within the widget, borders included. */
    predicate Inside(ex: int, ey: int)
    {
      ex >= area.x && ey >= area.y && ex <= area.x + area.w && ey <= area.y + area.h
    }

    /**
     * `calculate_cursor`: nothing without a mouse position; otherwise the cursor goes to the
     * target on the ray under the mouse, and the result says whether it moved.
     */
    method CalculateCursor(mx: int, my: int, shift: bool, ctrl: bool) returns (moved: bool)
      requires Valid()
      modifies editor`cursor
      ensures mx == IntMin ==> !moved && editor.cursor == old(editor.cursor)
      ensures mx != IntMin ==> editor.cursor.Some?
      ensures mx != IntMin ==> IsCursorTarget(editor.voxels, Denormalize(MouseCell(mx, my), facing), facing, Reverse(), vector,
                                              EffectiveTool(editor.tool, shift, ctrl) == PencilAbove, editor.cursor.value)
      ensures moved <==> editor.cursor != old(editor.cursor)
    {
      if mx == IntMin {
        return false;
      }
      var pos2d := MousePos(mx, my, area, voxelWidth, invertY);
      var pos := DenormalizePos(pos2d);
      var selected := editor.GetSelectedVoxel(pos, facing, Coord(vector, facing) < 0);
      var cursor := selected;
      if EffectiveTool(editor.tool, shift, ctrl) == PencilAbove && cursor in editor.voxels {
        cursor := Advance(cursor, vector);
      }
      moved := editor.SetCursor(cursor);
    }

    /**
     * `pencil_voxel`: at the cursor, run the command that writes a voxel of `color` to the
     * current layer and remembers what was there, then write the voxel once more.
     */
    method PencilVoxel(color: Color)
      requires editor.Valid() && (editor.cursor.Some? ==> editor.layers != [])
      modifies editor`layers, editor`voxels, editor`symmetric, editor`current, editor`undoStack, editor`redoStack
      ensures editor.Valid()
      ensures (editor.Snapshot(), editor.Log()) == Stroke(old(editor.Snapshot()), old(editor.Log()), editor.cursor, LeftButton, color)
    {
      if editor.cursor.Some? {
        var cursor := editor.cursor.value;
        var voxel := Voxel(color, Untagged);
        var previous := None;
        if cursor in editor.layers[editor.current].store {
          previous := Some(editor.layers[editor.current].store[cursor]);
        }
        ghost var s := editor.Snapshot();
        var c := Command.SetVoxel(cursor, voxel, previous);
        assert c == PencilCommand(s, cursor, color);
        editor.ExecuteCommand(c);
        editor.SetVoxel(cursor, voxel);
        SetVoxelTwice(s, cursor, voxel);
      }
    }

    /**
     * `delete_voxel`: when the current layer holds a voxel at the cursor, run the command that
     * erases it and remembers it; otherwise record nothing.
     */
    method DeleteVoxel()
      requires editor.Valid() && (editor.cursor.Some? ==> editor.layers != [])
      modifies editor`layers, editor`voxels, editor`symmetric, editor`current, editor`undoStack, editor`redoStack
      ensures editor.Valid()
      ensures (editor.Snapshot(), editor.Log()) == Stroke(old(editor.Snapshot()), old(editor.Log()), editor.cursor, RightButton, Color(0, 0, 0, 0))
    {
      if editor.cursor.Some? {
        var cursor := editor.cursor.value;
        if cursor !in editor.layers[editor.current].store {
          return;
        }
        var removed := editor.layers[editor.current].store[cursor];
        editor.ExecuteCommand(Command.DeleteVoxel(cursor, removed));
      }
    }

    /** `SDL_KEYUP` / `SDL_KEYDOWN`: the modifier keys may change the tool, so the cursor is recomputed. */
    method KeyEvent(shift: bool, ctrl: bool)
      requires Valid()
      modifies editor`cursor
      ensures lastSelectX == IntMin ==> editor.cursor == old(editor.cursor)
      ensures lastSelectX != IntMin ==> editor.cursor.Some?
      ensures lastSelectX != IntMin ==> IsCursorTarget(editor.voxels, Denormalize(MouseCell(lastSelectX, lastSelectY), facing), facing,
                                                       Reverse(), vector, EffectiveTool(editor.tool, shift, ctrl) == PencilAbove, editor.cursor.value)
    {
      var _ := CalculateCursor(lastSelectX, lastSelectY, shift, ctrl);
    }

    /** `SDL_MOUSEWHEEL`: with the focus and a cursor, move the cursor one step along the facing axis. */
    method Wheel(wheelY: int)
      requires Valid()
      modifies editor`cursor
      ensures !focus || old(editor.cursor).None? ==> editor.cursor == old(editor.cursor)
      ensures focus && old(editor.cursor).Some? ==> editor.cursor == Some(Scrolled(old(editor.cursor).value, facing, vector, wheelY > 0))
    {
      if !focus || editor.cursor.None? {
        return;
      }
      var cursor := editor.cursor.value;
      if wheelY > 0 {
        cursor := WithCoord(cursor, facing, Coord(cursor, facing) - Coord(vector, facing));
      } else {
        cursor := WithCoord(cursor, facing, Coord(cursor, facing) + Coord(vector, facing));
      }
      var _ := editor.SetCursor(cursor);
    }

    /** `SDL_MOUSEBUTTONUP`: the drag ends. */
    method MouseButtonUp()
      modifies this`drawingOn, this`drawn
      ensures !drawingOn && drawn == {}
    {
      drawingOn := false;
      drawn := {};
    }

    /**
     * `SDL_MOUSEBUTTONDOWN`. Outside the widget the drag ends. Inside, the pencil tools paint
     * (left button) or erase (right button) at the cursor, recompute the cursor at the last
     * mouse position and start a drag whose only drawn cell is the cursor's; the picker
     * returns the colour of the composite voxel under the cursor, which the source hands to the
     * colour picker as primary (left) or secondary (right) colour.
     */
    method MouseButtonDown(ex: int, ey: int, button: Button, shift: bool, ctrl: bool, color: Color) returns (picked: Option<Color>)
      requires Valid() && editor.Valid()
      requires Inside(ex, ey) && EffectiveTool(editor.tool, shift, ctrl) != Picker && button != OtherButton && editor.cursor.Some? ==>
        editor.layers != []
      modifies this`drawingOn, this`drawn, editor`cursor
      modifies editor`layers, editor`voxels, editor`symmetric, editor`current, editor`undoStack, editor`redoStack
      ensures Valid() && editor.Valid() && |editor.layers| == old(|editor.layers|)
      ensures !Inside(ex, ey) ==> !drawingOn && drawn == {} && picked == None
      ensures !Inside(ex, ey) || EffectiveTool(editor.tool, shift, ctrl) == Picker ==>
        editor.Snapshot() == old(editor.Snapshot()) && editor.Log() == old(editor.Log()) && editor.cursor == old(editor.cursor)
      ensures Inside(ex, ey) && EffectiveTool(editor.tool, shift, ctrl) == Picker ==>
        drawingOn == old(drawingOn) && drawn == old(drawn)
      ensures Inside(ex, ey) && EffectiveTool(editor.tool, shift, ctrl) == Picker ==>
        picked == (if button != OtherButton && editor.cursor.Some? && editor.cursor.value in editor.voxels
                   then Some(editor.voxels[editor.cursor.value].color) else None)
      ensures Inside(ex, ey) && EffectiveTool(editor.tool, shift, ctrl) != Picker ==>
        (editor.Snapshot(), editor.Log()) == Stroke(old(editor.Snapshot()), old(editor.Log()), old(editor.cursor), button, color)
      ensures Inside(ex, ey) && EffectiveTool(editor.tool, shift, ctrl) != Picker ==>
        picked == None && drawingOn && drawn == (if editor.cursor.Some? then {Normalize(editor.cursor.value, facing)} else {})
      ensures Inside(ex, ey) && EffectiveTool(editor.tool, shift, ctrl) != Picker && lastSelectX == IntMin ==>
        editor.cursor == old(editor.cursor)
      ensures Inside(ex, ey) && EffectiveTool(editor.tool, shift, ctrl) != Picker && lastSelectX != IntMin ==>
        editor.cursor.Some? &&
        IsCursorTarget(editor.voxels, Denormalize(MouseCell(lastSelectX, lastSelectY), facing), facing, Reverse(), vector,
                       EffectiveTool(editor.tool, shift, ctrl) == PencilAbove, editor.cursor.value)
    {
      picked := None;
      if !Inside(ex, ey) {
        drawingOn := false;
        drawn := {};
        return;
      }
      var tool := EffectiveTool(editor.tool, shift, ctrl);
      if tool == Picker {
        picked := PickColor(button);
        return;
      }
      Paint(button, color);
      StartDrag(shift, ctrl);
    }

    /** The picker branch of `SDL_MOUSEBUTTONDOWN`: the colour of the composite voxel under the cursor. */
    method PickColor(button: Button) returns (picked: Option<Color>)
      ensures picked == (if button != OtherButton && editor.cursor.Some? && editor.cursor.value in editor.voxels
                         then Some(editor.voxels[editor.cursor.value].color) else None)
    {
      picked := None;
      if editor.cursor.Some? {
        var cursor := editor.cursor.value;
        if cursor in editor.voxels {
          var color := editor.voxels[cursor].color;
          if button == LeftButton {
            picked := Some(color);
          } else if button == RightButton {
            picked := Some(color);
          }
        }
      }
    }

    /** The button dispatch of the pencil tools: `pencil_voxel` on the left button, `delete_voxel` on the right. */
    method Paint(button: Button, color: Color)
      requires editor.Valid() && (editor.cursor.Some? && button != OtherButton ==> editor.layers != [])
      modifies editor`layers, editor`voxels, editor`symmetric, editor`current, editor`undoStack, editor`redoStack
      ensures editor.Valid() && |editor.layers| == old(|editor.layers|)
      ensures (editor.Snapshot(), editor.Log()) == Stroke(old(editor.Snapshot()), old(editor.Log()), editor.cursor, button, color)
    {
      if button == LeftButton {
        PencilVoxel(color);
      } else if button == RightButton {
        DeleteVoxel();
      }
    }

    /**
     * The end of the pencil branch of `SDL_MOUSEBUTTONDOWN`: recompute the cursor at the last
     * mouse position and start a drag whose only drawn cell is the cursor's.
     */
    method StartDrag(shift: bool, ctrl: bool)
      requires Valid()
      modifies this`drawingOn, this`drawn, editor`cursor
      ensures drawingOn && drawn == (if editor.cursor.Some? then {Normalize(editor.cursor.value, facing)} else {})
      ensures lastSelectX == IntMin ==> editor.cursor == old(editor.cursor)
      ensures lastSelectX != IntMin ==> editor.cursor.Some?
      ensures lastSelectX != IntMin ==> IsCursorTarget(editor.voxels, Denormalize(MouseCell(lastSelectX, lastSelectY), facing), facing,
                                                       Reverse(), vector, EffectiveTool(editor.tool, shift, ctrl) == PencilAbove, editor.cursor.value)
    {
      var _ := CalculateCursor(lastSelectX, lastSelectY, shift, ctrl);
      drawingOn := true;
      drawn := {};
      if editor.cursor.Some? {
        var cell := NormalizePos(editor.cursor.value);
        drawn := drawn + {cell};
      }
    }

    /** A pencil drag with a button held: the motions on which `SDL_MOUSEMOTION` draws once the cursor moves. */
    predicate Drawing(leftHeld: bool, rightHeld: bool, shift: bool, ctrl: bool)
      reads this`drawingOn, editor`tool
    {
      EffectiveTool(editor.tool, shift, ctrl) == Pencil && drawingOn && (leftHeld || rightHeld)
    }

    /**
     * `SDL_MOUSEMOTION`. Outside the widget the view loses the focus and the mouse position.
     * Inside, it takes the focus, moves the cursor and remembers the mouse position; when the
     * cursor moved, the pencil tool is dragging and the left (else the right) button is held,
     * the cell under the mouse is painted (erased) unless this drag has already drawn on it.
     */
    method MouseMotion(mx: int, my: int, leftHeld: bool, rightHeld: bool, shift: bool, ctrl: bool, color: Color)
      requires Valid() && editor.Valid()
      requires mx != IntMin
      requires forall c ::
        (Inside(mx, my) && Drawing(leftHeld, rightHeld, shift, ctrl) && MouseCell(mx, my) !in drawn &&
         IsCursorTarget(editor.voxels, Denormalize(MouseCell(mx, my), facing), facing, Reverse(), vector, false, c) &&
         editor.cursor != Some(c)) ==> editor.layers != []
      modifies this`focus, this`lastSelectX, this`lastSelectY, this`drawn, editor`cursor
      modifies editor`layers, editor`voxels, editor`symmetric, editor`current, editor`undoStack, editor`redoStack
      ensures Valid() && editor.Valid() && |editor.layers| == old(|editor.layers|)
      ensures !Inside(mx, my) ==> !focus && lastSelectX == IntMin && lastSelectY == IntMin
      ensures !Inside(mx, my) ==> editor.cursor == old(editor.cursor)
      ensures Inside(mx, my) ==> focus && lastSelectX == mx && lastSelectY == my && editor.cursor.Some?
      ensures Inside(mx, my) ==>
        IsCursorTarget(editor.voxels, Denormalize(MouseCell(mx, my), facing), facing, Reverse(), vector,
                       EffectiveTool(editor.tool, shift, ctrl) == PencilAbove, editor.cursor.value)
      ensures drawn == old(drawn) || (drawn == old(drawn) + {MouseCell(mx, my)} && MouseCell(mx, my) !in old(drawn))
      ensures drawn != old(drawn) ==> Inside(mx, my) && drawingOn && (leftHeld || rightHeld)
      ensures editor.Log() != old(editor.Log()) ==> drawn == old(drawn) + {MouseCell(mx, my)} && MouseCell(mx, my) !in old(drawn)
      ensures editor.Log() == old(editor.Log()) ==> editor.Snapshot() == old(editor.Snapshot())
      ensures !Inside(mx, my) ==> drawn == old(drawn) && editor.Snapshot() == old(editor.Snapshot()) && editor.Log() == old(editor.Log())
      ensures Inside(mx, my) ==> exists c ::
        IsCursorTarget(old(editor.voxels), Denormalize(MouseCell(mx, my), facing), facing, Reverse(), vector,
                       EffectiveTool(editor.tool, shift, ctrl) == PencilAbove, c) &&
        if old(editor.cursor) != Some(c) && Drawing(leftHeld, rightHeld, shift, ctrl) && MouseCell(mx, my) !in old(drawn) then
          drawn == old(drawn) + {MouseCell(mx, my)} &&
          (editor.Snapshot(), editor.Log()) ==
            Stroke(old(editor.Snapshot()), old(editor.Log()), Some(c), if leftHeld then LeftButton else RightButton, color)
        else
          drawn == old(drawn) && editor.Snapshot() == old(editor.Snapshot()) && editor.Log() == old(editor.Log()) &&
          editor.cursor == Some(c)
    {
      if !Inside(mx, my) {
        lastSelectX := IntMin;
        lastSelectY := IntMin;
        focus := false;
        return;
      }
      focus := true;
      // The source stores the position after `calculate_cursor`; that call takes the position
      // as arguments and does not read these fields, so the order does not change the result.
      lastSelectX := mx;
      lastSelectY := my;
      Follow(mx, my, leftHeld, rightHeld, shift, ctrl, color);
    }

    /**
     * The part of `SDL_MOUSEMOTION` inside the widget that moves the cursor to the target under
     * the mouse and, when it moved, hands the motion to the tool.
     */
    method Follow(mx: int, my: int, leftHeld: bool, rightHeld: bool, shift: bool, ctrl: bool, color: Color)
      requires Valid() && editor.Valid() && mx != IntMin
      requires forall c ::
        (Drawing(leftHeld, rightHeld, shift, ctrl) && MouseCell(mx, my) !in drawn &&
         IsCursorTarget(editor.voxels, Denormalize(MouseCell(mx, my), facing), facing, Reverse(), vector, false, c) &&
         editor.cursor != Some(c)) ==> editor.layers != []
      modifies this`drawn, editor`cursor
      modifies editor`layers, editor`voxels, editor`symmetric, editor`current, editor`undoStack, editor`redoStack
      ensures editor.Valid() && |editor.layers| == old(|editor.layers|) && editor.cursor.Some?
      ensures IsCursorTarget(editor.voxels, Denormalize(MouseCell(mx, my), facing), facing, Reverse(), vector,
                             EffectiveTool(editor.tool, shift, ctrl) == PencilAbove, editor.cursor.value)
      ensures drawn == old(drawn) || (drawn == old(drawn) + {MouseCell(mx, my)} && MouseCell(mx, my) !in old(drawn))
      ensures drawn != old(drawn) ==> drawingOn && (leftHeld || rightHeld)
      ensures editor.Log() != old(editor.Log()) ==> drawn == old(drawn) + {MouseCell(mx, my)} && MouseCell(mx, my) !in old(drawn)
      ensures editor.Log() == old(editor.Log()) ==> editor.Snapshot() == old(editor.Snapshot())
      ensures exists c ::
        IsCursorTarget(old(editor.voxels), Denormalize(MouseCell(mx, my), facing), facing, Reverse(), vector,
                       EffectiveTool(editor.tool, shift, ctrl) == PencilAbove, c) &&
        if old(editor.cursor) != Some(c) && Drawing(leftHeld, rightHeld, shift, ctrl) && MouseCell(mx, my) !in old(drawn) then
          drawn == old(drawn) + {MouseCell(mx, my)} &&
          (editor.Snapshot(), editor.Log()) ==
            Stroke(old(editor.Snapshot()), old(editor.Log()), Some(c), if leftHeld then LeftButton else RightButton, color)
        else
          drawn == old(drawn) && editor.Snapshot() == old(editor.Snapshot()) && editor.Log() == old(editor.Log()) &&
          editor.cursor == Some(c)
    {
      ghost var before := editor.cursor;
      var isCursorSet := CalculateCursor(mx, my, shift, ctrl);
      ghost var c := editor.cursor.value;
      if isCursorSet {
        Drag(mx, my, leftHeld, rightHeld, shift, ctrl, color);
      } else {
        assert before == Some(c);
      }
    }

    /** The tool dispatch of `SDL_MOUSEMOTION` once the cursor has moved: only the pencil tool draws while dragging. */
    method Drag(mx: int, my: int, leftHeld: bool, rightHeld: bool, shift: bool, ctrl: bool, color: Color)
      requires Valid() && editor.Valid() && mx != IntMin && editor.cursor.Some?
      requires IsCursorTarget(editor.voxels, Denormalize(MouseCell(mx, my), facing), facing, Reverse(), vector,
                              EffectiveTool(editor.tool, shift, ctrl) == PencilAbove, editor.cursor.value)
      requires Drawing(leftHeld, rightHeld, shift, ctrl) && MouseCell(mx, my) !in drawn ==> editor.layers != []
      modifies this`drawn, editor`cursor
      modifies editor`layers, editor`voxels, editor`symmetric, editor`current, editor`undoStack, editor`redoStack
      ensures editor.Valid() && |editor.layers| == old(|editor.layers|) && editor.cursor.Some?
      ensures IsCursorTarget(editor.voxels, Denormalize(MouseCell(mx, my), facing), facing, Reverse(), vector,
                             EffectiveTool(editor.tool, shift, ctrl) == PencilAbove, editor.cursor.value)
      ensures drawn == old(drawn) || (drawn == old(drawn) + {MouseCell(mx, my)} && MouseCell(mx, my) !in old(drawn))
      ensures drawn != old(drawn) ==> drawingOn && (leftHeld || rightHeld)
      ensures editor.Log() != old(editor.Log()) ==> drawn == old(drawn) + {MouseCell(mx, my)} && MouseCell(mx, my) !in old(drawn)
      ensures editor.Log() == old(editor.Log()) ==> editor.Snapshot() == old(editor.Snapshot())
      ensures Drawing(leftHeld, rightHeld, shift, ctrl) && MouseCell(mx, my) !in old(drawn) ==>
        drawn == old(drawn) + {MouseCell(mx, my)} &&
        (editor.Snapshot(), editor.Log()) ==
          Stroke(old(editor.Snapshot()), old(editor.Log()), old(editor.cursor), if leftHeld then LeftButton else RightButton, color)
      ensures !(Drawing(leftHeld, rightHeld, shift, ctrl) && MouseCell(mx, my) !in old(drawn)) ==>
        drawn == old(drawn) && editor.Snapshot() == old(editor.Snapshot()) && editor.Log() == old(editor.Log()) &&
        editor.cursor == old(editor.cursor)
    {
      if Drawing(leftHeld, rightHeld, shift, ctrl) {
        DragStep(mx, my, if leftHeld then LeftButton else RightButton, shift, ctrl, color);
      }
    }

    /**
     * One step of a pencil drag, with the cursor on the ray under the mouse: paint or erase
     * there unless this drag has already drawn on that screen cell.
     */
    method DragStep(mx: int, my: int, button: Button, shift: bool, ctrl: bool, color: Color)
      requires Valid() && editor.Valid() && mx != IntMin
      requires EffectiveTool(editor.tool, shift, ctrl) == Pencil && editor.cursor.Some?
      requires MouseCell(mx, my) !in drawn ==> editor.layers != []
      requires IsCursorTarget(editor.voxels, Denormalize(MouseCell(mx, my), facing), facing, Reverse(), vector, false, editor.cursor.value)
      modifies this`drawn, editor`cursor
      modifies editor`layers, editor`voxels, editor`symmetric, editor`current, editor`undoStack, editor`redoStack
      ensures editor.Valid() && |editor.layers| == old(|editor.layers|)
      ensures editor.cursor.Some?
      ensures IsCursorTarget(editor.voxels, Denormalize(MouseCell(mx, my), facing), facing, Reverse(), vector, false, editor.cursor.value)
      ensures drawn == old(drawn) || (drawn == old(drawn) + {MouseCell(mx, my)} && MouseCell(mx, my) !in old(drawn))
      ensures editor.Log() != old(editor.Log()) ==> drawn == old(drawn) + {MouseCell(mx, my)} && MouseCell(mx, my) !in old(drawn)
      ensures editor.Log() == old(editor.Log()) ==> editor.Snapshot() == old(editor.Snapshot())
      ensures MouseCell(mx, my) !in old(drawn) ==>
        drawn == old(drawn) + {MouseCell(mx, my)} &&
        (editor.Snapshot(), editor.Log()) == Stroke(old(editor.Snapshot()), old(editor.Log()), old(editor.cursor), button, color)
      ensures MouseCell(mx, my) in old(drawn) ==>
        drawn == old(drawn) && editor.Snapshot() == old(editor.Snapshot()) && editor.Log() == old(editor.Log()) &&
        editor.cursor == old(editor.cursor)
    {
      PencilTargetUnderMouse(editor.voxels, MouseCell(mx, my), facing, Reverse(), vector, editor.cursor.value);
      var cell := NormalizePos(editor.cursor.value);
      if cell !in drawn {
        DrawAt(mx, my, button, shift, ctrl, color);
      }
    }

    /** Paint or erase at the cursor, recompute the cursor under the mouse, and record the screen cell as drawn. */
    method DrawAt(mx: int, my: int, button: Button, shift: bool, ctrl: bool, color: Color)
      requires Valid() && editor.Valid() && editor.layers != [] && mx != IntMin
      requires EffectiveTool(editor.tool, shift, ctrl) == Pencil
      modifies this`drawn, editor`cursor
      modifies editor`layers, editor`voxels, editor`symmetric, editor`current, editor`undoStack, editor`redoStack
      ensures editor.Valid() && |editor.layers| == old(|editor.layers|)
      ensures drawn == old(drawn) + {MouseCell(mx, my)} && editor.cursor.Some?
      ensures IsCursorTarget(editor.voxels, Denormalize(MouseCell(mx, my), facing), facing, Reverse(), vector, false, editor.cursor.value)
      ensures (editor.Snapshot(), editor.Log()) == Stroke(old(editor.Snapshot()), old(editor.Log()), old(editor.cursor), button, color)
    {
      Paint(button, color);
      MarkDrawn(mx, my, shift, ctrl);
    }

    /** After drawing during a drag: recompute the cursor under the mouse and record its screen cell as drawn. */
    method MarkDrawn(mx: int, my: int, shift: bool, ctrl: bool)
      requires Valid() && mx != IntMin
      requires EffectiveTool(editor.tool, shift, ctrl) == Pencil
      modifies this`drawn, editor`cursor
      ensures drawn == old(drawn) + {MouseCell(mx, my)} && editor.cursor.Some?
      ensures IsCursorTarget(editor.voxels, Denormalize(MouseCell(mx, my), facing), facing, Reverse(), vector, false, editor.cursor.value)
    {
      var _ := CalculateCursor(mx, my, shift, ctrl);
      PencilTargetUnderMouse(editor.voxels, MouseCell(mx, my), facing, Reverse(), vector, editor.cursor.value);
      var cell := NormalizePos(editor.cursor.value);
      drawn := drawn + {cell};
    }
  }

  /**
   * `perspective_widget`: a view and its toolbar. Its direction can be flipped, which rebuilds
   * the renderer looking the other way.
   */
  class PerspectiveWidget {
    const editor: VoxelEditor
    const area: Rect                // the renderer's share of the widget
    var xdir: int                   // xdir_
    var ydir: int                   // ydir_
    var zdir: int                   // zdir_
    var flipped: bool               // flipped_
    var renderer: Renderer          // renderer_

    ghost predicate Valid()
      reads this, renderer
    {
      && Pos(xdir, ydir, zdir) != Pos(0, 0, 0)
      && renderer.Valid()
      && renderer.vector == Pos(xdir, ydir, zdir)
      && renderer.editor == editor && renderer.area == area
    }

    /** `perspective_widget(area, xdir, ydir, zdir)`: unflipped, with a new renderer (`init`). */
    constructor (editor: VoxelEditor, area: Rect, xdir: int, ydir: int, zdir: int)
      requires Pos(xdir, ydir, zdir) != Pos(0, 0, 0)
      ensures Valid() && fresh(renderer)
      ensures this.xdir == xdir && this.ydir == ydir && this.zdir == zdir && !flipped
      ensures renderer.voxelWidth == 20 && !renderer.drawingOn && !renderer.focus
    {
      this.editor := editor;
      this.area := area;
      this.xdir := xdir;
      this.ydir := ydir;
      this.zdir := zdir;
      flipped := false;
      renderer := new Renderer(editor, area, xdir, ydir, zdir);
    }

    /**
     * `flip`: negate the direction and rebuild the renderer. The new view faces the same axis
     * from the other side, and starts afresh: zoom back at 20, no mouse position, no drag.
     */
    method Flip()
      requires Valid()
      modifies this
      ensures Valid() && fresh(renderer)
      ensures flipped == !old(flipped)
      ensures Pos(xdir, ydir, zdir) == Negate(old(Pos(xdir, ydir, zdir)))
      ensures renderer.facing == old(renderer.facing)
      ensures renderer.Reverse() == !old(renderer.Reverse())
      ensures renderer.voxelWidth == 20 && renderer.lastSelectX == IntMin && !renderer.drawingOn && !renderer.focus
    {
      FlipKeepsFacing(Pos(xdir, ydir, zdir));
      flipped := !flipped;
      xdir := xdir * -1;
      ydir := ydir * -1;
      zdir := zdir * -1;
      renderer := new Renderer(editor, area, xdir, ydir, zdir);
    }
  }
}

=== FILE: voxels.dfy ===
/**
 * The voxel content of layers: a sparse map per layer, the symmetric (mirrored) write and erase,
 * the layer-tagged composite of all active layers, and the depth-resolution rule that picks the
 * visible voxel along an axis.
 */
module Voxels {
  import opened Options
  import opened Geometry

  type Byte = n: int | 0 <= n < 256

  /** A colour with four 8-bit channels (the source's `graphics::color`). */
  datatype Color = Color(r: Byte, g: Byte, b: Byte, a: Byte)

  /** A voxel: its colour and the composite's layer tag (-1 when not in the composite). */
  datatype Voxel = Voxel(color: Color, nlayer: int)

  /** `Voxel()` leaves the tag at -1. */
  const Untagged := -1

  /** Every voxel of a layer map carries the tag -1, as `Voxel()` leaves it. */
  ghost predicate UntaggedStore(store: map<Pos, Voxel>)
  {
    forall p :: p in store ==> store[p].nlayer == Untagged
  }

  /** One variation of a layer type: its name and its voxels (`struct Layer`). */
  datatype Layer = Layer(name: string, store: map<Pos, Voxel>)

  /**
   * `layer().map[pos] = voxel`, followed under symmetric mode by the same write at the mirror
   * cell. The mirror is never the cell itself, so both cells hold `v` afterwards.
   */
  function Place(m: map<Pos, Voxel>, p: Pos, v: Voxel, symmetric: bool): (r: map<Pos, Voxel>)
    ensures p in r && r[p] == v
    ensures symmetric ==> Mirror(p) in r && r[Mirror(p)] == v && Mirror(p) != p
    ensures r.Keys == m.Keys + {p} + (if symmetric then {Mirror(p)} else {})
    ensures forall q :: q in m && q != p && (!symmetric || q != Mirror(p)) ==> r[q] == m[q]
  {
    MirrorNoFixedPoint(p);
    var once := m[p := v];
    if symmetric then once[Mirror(p) := v] else once
  }

  /** `layer().map.erase(pos)`, followed under symmetric mode by the erase of the mirror cell. */
  function Erase(m: map<Pos, Voxel>, p: Pos, symmetric: bool): (r: map<Pos, Voxel>)
    ensures r.Keys == m.Keys - {p} - (if symmetric then {Mirror(p)} else {})
    ensures forall q :: q in r ==> r[q] == m[q]
  {
    var once := m - {p};
    if symmetric then once - {Mirror(p)} else once
  }

  /** Writing the same voxel twice at the same cell is the same as writing it once. */
  lemma PlaceIdempotent(m: map<Pos, Voxel>, p: Pos, v: Voxel, symmetric: bool)
    ensures Place(Place(m, p, v, symmetric), p, v, symmetric) == Place(m, p, v, symmetric)
  {
    var once := Place(m, p, v, symmetric);
    var twice := Place(once, p, v, symmetric);
    assert twice.Keys == once.Keys;
    forall q | q in once ensures twice[q] == once[q] {
      if q == p || (symmetric && q == Mirror(p)) {
      }
    }
  }

  /** Erasing a cell that is absent (with its mirror, under symmetric mode) changes nothing. */
  lemma EraseAbsent(m: map<Pos, Voxel>, p: Pos, symmetric: bool)
    requires p !in m
    requires symmetric ==> Mirror(p) !in m
    ensures Erase(m, p, symmetric) == m
  {
    var r := Erase(m, p, symmetric);
    assert r.Keys == m.Keys;
  }

  /** `p.second.nlayer = nlayer` */
  function Stamp(v: Voxel, i: int): Voxel
  {
    v.(nlayer := i)
  }

  /** The lowest-index layer whose map holds `p`, if any. */
  function Owner(layers: seq<Layer>, p: Pos): (r: Option<nat>)
    ensures r.None? <==> forall i :: 0 <= i < |layers| ==> p !in layers[i].store
    ensures r.Some? ==> r.value < |layers| && p in layers[r.value].store
    ensures r.Some? ==> forall j :: 0 <= j < r.value ==> p !in layers[j].store
    decreases |layers|
  {
    if layers == [] then None
    else
      var n := |layers| - 1;
      match Owner(layers[..n], p)
      case Some(i) => Some(i)
      case None => if p in layers[n].store then Some(n) else None
  }

  /**
   * The inner loop of `build_voxels` after inserting the keys `keys` of layer `i`'s map into
   * `base`: `std::map::insert` leaves a key that is already present untouched.
   */
  function Overlay(base: map<Pos, Voxel>, store: map<Pos, Voxel>, i: int, keys: set<Pos>): (r: map<Pos, Voxel>)
    requires keys <= store.Keys
    ensures r.Keys == base.Keys + keys
    ensures forall q :: q in base ==> r[q] == base[q]
    ensures forall q :: q in keys && q !in base ==> r[q] == Stamp(store[q], i)
  {
    base + map q | q in keys && q !in base :: Stamp(store[q], i)
  }

  /**
   * One more `insert` of layer `i`'s entry at `q`: an entry already in the composite stays,
   * a new one is added with the layer tag.
   */
  lemma OverlayInsert(base: map<Pos, Voxel>, store: map<Pos, Voxel>, i: int, keys: set<Pos>, q: Pos)
    requires keys <= store.Keys && q in store
    ensures var r := Overlay(base, store, i, keys);
            Overlay(base, store, i, keys + {q}) == if q in r then r else r[q := Stamp(store[q], i)]
  {
    var r := Overlay(base, store, i, keys);
    var r2 := Overlay(base, store, i, keys + {q});
    var expected := if q in r then r else r[q := Stamp(store[q], i)];
    assert r2.Keys == expected.Keys;
    forall k | k in r2 ensures r2[k] == expected[k] {
      if k != q && k !in base {
        assert k in keys;
      }
    }
  }

  /**
   * The composite `voxels_` as `build_voxels` leaves it: the active layers' maps inserted in
   * index order, each entry tagged with its layer's index.
   */
  function Merge(layers: seq<Layer>): map<Pos, Voxel>
    decreases |layers|
  {
    if layers == [] then map[]
    else
      var n := |layers| - 1;
      Overlay(Merge(layers[..n]), layers[n].store, n, layers[n].store.Keys)
  }

  /** The composite of the first `n + 1` layers adds layer `n`'s cells to that of the first `n`. */
  lemma MergePrefix(layers: seq<Layer>, n: nat)
    requires n < |layers|
    ensures Merge(layers[..n + 1]) == Overlay(Merge(layers[..n]), layers[n].store, n, layers[n].store.Keys)
  {
    assert layers[..n + 1][..n] == layers[..n];
  }

  /**
   * The composite holds every cell of every active layer and nothing else; each cell comes
   * from the lowest-index layer that holds it, tagged with that layer's index, because
   * `insert` never overwrites an earlier layer's entry.
   */
  lemma {:induction false} MergeOwner(layers: seq<Layer>, p: Pos)
    ensures p in Merge(layers) <==> exists i :: 0 <= i < |layers| && p in layers[i].store
    ensures p in Merge(layers) <==> Owner(layers, p).Some?
    ensures p in Merge(layers) ==>
      var i := Owner(layers, p).value; Merge(layers)[p] == Stamp(layers[i].store[p], i)
    decreases |layers|
  {
    if layers != [] {
      var n := |layers| - 1;
      var prefix := layers[..n];
      assert forall i :: 0 <= i < n ==> prefix[i] == layers[i];
      MergeOwner(prefix, p);
      if p in Merge(prefix) {
        assert Owner(layers, p) == Owner(prefix, p);
      }
    }
  }

  /**
   * What `get_selected_voxel(pos, f, reverse)` returns: a cell `r` on the ray through `pos`
   * along axis `f`; when some composite cell lies on that ray, `r` is such a cell with the
   * greatest `Depth` among them; when none does, `r` is `pos` itself.
   */
  ghost predicate IsSelection(vox: map<Pos, Voxel>, pos: Pos, f: Axis, reverse: bool, r: Pos)
  {
    && AgreeOff(r, pos, f)
    && ((exists q :: q in vox && AgreeOff(q, pos, f)) ==>
          r in vox && forall q :: q in vox && AgreeOff(q, pos, f) ==> Depth(q, f, reverse) <= Depth(r, f, reverse))
    && ((forall q :: q in vox ==> !AgreeOff(q, pos, f)) ==> r == pos)
  }

  /**
   * The selection is determined by the composite alone: keys are unique, so two cells on the
   * same ray never tie, and neither the `>=` tie-break nor the scan order can change the result.
   */
  lemma SelectionUnique(vox: map<Pos, Voxel>, pos: Pos, f: Axis, reverse: bool, r1: Pos, r2: Pos)
    requires IsSelection(vox, pos, f, reverse, r1)
    requires IsSelection(vox, pos, f, reverse, r2)
    ensures r1 == r2
  {
    if exists q :: q in vox && AgreeOff(q, pos, f) {
      assert Depth(r1, f, reverse) == Depth(r2, f, reverse);
      assert AgreeOff(r1, r2, f) by {
        forall n: Axis | n != f ensures Coord(r1, n) == Coord(r2, n) {
          assert Coord(r1, n) == Coord(pos, n);
        }
      }
      SameRayAndDepth(r1, r2, f, reverse);
    }
  }
}
